=== FILE: README.md ===
# OPC-N2 driver model

A Dafny model of the Python driver for the Alphasense OPC-N2 optical
particle counter. It covers the part that talks to the instrument over SPI:

- the byte codec: 16-bit and 32-bit little-endian words, temperature, pressure and time of flight;
- the 62-byte histogram payload, checksum validation included, for both firmware layouts;
- the 256-byte and 9-byte configuration tables, the digital-pot status and the PM record;
- the control commands and their acknowledgement patterns;
- firmware detection when the driver is built, the supported-range check and the `requires_firmware` decorator;
- the earlier stand-alone `OPCN2` class in `opc.py`.

The SPI connection is a script of reply bytes plus a trace of the argument of
every `xfer` call (`Transport.Channel`). Every `xfer` call shifts out as many
bytes as it sends and consumes as many replies. A call for which the script
has too few replies fails with `TransportError` and leaves the channel
unchanged; this is what the constructor's bare `except:` clauses catch.
Operations are pure functions from the driver state to a `Reply` that holds
the result or the raised exception, and the state afterwards. Python
exceptions are the constructors of `Wrappers.Error`.

The IEEE 754 single-precision values (PM, sample flow rate, the
modern sampling period, the configuration weights) are carried as their four
bytes (`Bytes.F32`). Quotients such as temperature, time of flight and the
legacy period are exact `real`s, and so is the version `read_firmware` builds, `major + minor / 10^k` for a minor of k digits.

## Model

| member | source | states |
|---|---|---|
| Bytes.U16 | opc/__init__.py:80-91 | the value is below 2^16, its low byte is LSB and its high byte is MSB |
| Bytes.U16Order | opc/__init__.py:80-91 | swapping the two bytes changes the value exactly when they differ, so argument order matters |
| Bytes.U16Injective | opc/__init__.py:80-91 | two byte pairs give the same value if and only if they are the same pair |
| Bytes.U32 | opc/__init__.py:133-145 | the little-endian value is below 2^32 and each of its four bytes can be read back by division and remainder |
| Bytes.U16Bytes | opc/__init__.py:80-91 | every 16-bit value is produced from some byte pair |
| Bytes.U32Bytes | opc/__init__.py:133-145 | every 32-bit value is produced from some four bytes |
| Bytes.CalculateFloat | opc/__init__.py:93-105 | `None` exactly when the input is not four bytes long; otherwise the word holds those four bytes |
| Bytes.CalculatePressure | opc/__init__.py:133-145 | `None` exactly when fewer than four bytes are given; otherwise a value below 2^32 whose little-endian bytes are the first four |
| Bytes.CalculateTemp | opc/__init__.py:119-131 | `None` exactly when fewer than four bytes are given; otherwise ten times the temperature is the pressure word of the same bytes |
| Bytes.CalculateMtof | opc/__init__.py:107-117 | three times the time of flight is the byte, so it lies in 0..85 |
| Bytes.LengthGuardsDiffer | opc/__init__.py:93-145 | on more than four bytes the float helper refuses while pressure and temperature accept |
| Transport.ReadBytes | opc/__init__.py:202-204 | n filler transfers succeed exactly when n replies remain; they return those replies and append n `[0x00]` calls to the trace |
| Transport.Exchange | opc/__init__.py:197-205 | a read command sends `[cmd]`, discards its reply and returns the next n replies; it fails exactly when fewer than n+1 replies remain |
| Transport.Chars | opc/__init__.py:203-207 | the string has one character per byte, with that byte as its code |
| Commands.PowerOn | opc/__init__.py:248-262 | calls `[0x03]` then `[0x00, 0x01]`; True exactly when the first two replies are F3 and 03, the third reply is ignored |
| Commands.PowerOff | opc/__init__.py:264-278 | calls `[0x03]` then `[0x01]`; True exactly when the replies are F3 then 03 |
| Commands.Ping | opc/__init__.py:209-216 | calls `[0xCF]`; True exactly when the reply is F3 |
| Commands.ToggleLaser | opc/__init__.py:651-677 | calls `[0x03]` then `[0x02]` (on) or `[0x03]` (off); True exactly when the replies are F3 then 03 |
| Commands.ToggleFan | opc/__init__.py:679-705 | calls `[0x03]` then `[0x04]` (on) or `[0x05]` (off); True exactly when the replies are F3 then 03 |
| Commands.ToggleOutcomeIgnoresState | opc/__init__.py:651-705 | on the same replies a toggle reports the same outcome for either requested state |
| Commands.SendEach | opc/__init__.py:573-575 | one single-byte call per byte, in order; the result is the replies in order, and it fails exactly when there are too few |
| Commands.SaveConfig | opc/__init__.py:550-578 | six single-byte calls 43 3F 3C 3F 3C 43; True exactly when the six replies are F3 43 3F 3C 3F 3C |
| Commands.SetPowerAsWritten | opc/__init__.py:594-649 | every call raises `NameError` and transfers nothing |
| Commands.SetPower | opc/__init__.py:594-649 | a power above 255 raises `ValueError` and transfers nothing; otherwise it calls 42, the channel and the power; True exactly when the replies are F3, 42 and the channel byte |
| Commands.EnterBootloaderAsWritten | opc/__init__.py:580-592 | raises `TypeError` and transfers nothing |
| Commands.EnterBootloader | opc/__init__.py:580-592 | calls `[0x41]`; True exactly when the reply is F3 |
| Commands.SetFanPowerFinding | opc/__init__.py:609-620 | on the replies F3 42 00, fan power 200 raises as written, while the corrected call sends 42 00 C8 and returns True |
| Commands.EnterBootloaderFinding | opc/__init__.py:592 | on the reply F3 the written call raises, while the corrected call sends 41 and returns True |
| Firmware.LastTriple | opc/__init__.py:58 | the start of the last non-overlapping three-digit run at or after i; `None` exactly when no three digits start there |
| Firmware.LastDigit | opc/__init__.py:62 | the position of the last digit before n, with no digit after it; `None` exactly when there is no digit |
| Firmware.TripleVersion | opc/__init__.py:58 | `None` exactly when the string has no three consecutive digits; otherwise the value of the three digits at the scan's last match |
| Firmware.DigitVersion | opc/__init__.py:62 | `None` exactly when the string has no digit; otherwise the value of its last digit, the one no other digit follows |
| Firmware.TripleMatchesDoNotOverlap | opc/__init__.py:58 | in "12345" the matches do not overlap, so the version is 123 |
| Firmware.DigitVersionIsLastDigit | opc/__init__.py:62 | the fallback version is the value of the digit no other digit follows |
| Firmware.ScanSkipsNonDigit | opc/__init__.py:58 | the scan for three digits steps over a non-digit |
| Firmware.ScanDigitRun | opc/__init__.py:58 | a maximal run of n digits holds n/3 matches aligned at its start, so its last match is at a + 3(n/3 - 1), unless a later match follows |
| Firmware.ScanReachesRunStart | opc/__init__.py:58 | a match cannot straddle a non-digit, so the scan from any earlier start reaches the first digit of a run and finds the same last match |
| Firmware.LastRunVersion | opc/__init__.py:58 | the version is the three digits at the last multiple of three from the start of the last run of three or more digits |
| Firmware.RunRemainderIgnored | opc/__init__.py:58 | "1234" gives 123 and "0145" gives 14: a run's leftover digits never start a match |
| Firmware.NumDigits | opc/__init__.py:803 | the number of decimal digits `'{}'.format(n)` prints: n is below 10^k and, past one digit, at least 10^(k-1) |
| Firmware.ReportedVersion | opc/__init__.py:799-803 | the version lies between major and major+1, and its fraction times 10 to the minor's digit count is the minor |
| Firmware.ReportedVersionDecimals | opc/__init__.py:803 | the minor gives one, two or three decimal places by its digit count: 18.5, 18.25, 18.125 |
| Firmware.ReportedVersionConflatesMinors | opc/__init__.py:803 | minors 1 and 10 give the same version under major 18; minor 2 gives 18.2 |
| Decorators.Admit | opc/decorators.py:11-12 | a call is admitted exactly when the version is known and at least the threshold; an unknown version raises `TypeError`, a lower one `FirmwareVersionError` |
| Decorators.RequiresFirmware | opc/decorators.py:7-16 | an admitted call is exactly the wrapped method; a refused one returns the error with the object untouched, so nothing is transferred |
| Decorators.ThresholdInclusive | opc/decorators.py:11 | a version equal to the threshold passes |
| Decorators.RefusalNeverCallsMethod | opc/decorators.py:10-14 | a refused call has the same outcome whichever method is wrapped |
| Histogram.DecodeBins | opc/__init__.py:460-475 | bin i is the 16-bit value of bytes 2i (low) and 2i+1 (high) |
| Histogram.LegacyPeriod | opc/__init__.py:147-153 | the period times 12 MHz is the little-endian tick count |
| Histogram.ResolveShared | opc/__init__.py:495-506 | a raw value above 98000 is a pressure, one below 5000 is a temperature of raw/10, anything between is neither; never both |
| Histogram.DecodeEnv | opc/__init__.py:481-506 | the legacy layout exactly below version 16, with temperature, pressure and period from the three words; otherwise SFR word, resolved shared word and period word |
| Histogram.Decode | opc/__init__.py:460-525 | `None` exactly when the low 16 bits of the bin sum differ from the checksum field; otherwise bins, times of flight, the environment fields (at 36, 40 and 44 under the version's layout), checksum and PM words sit at their offsets, and the reading is well formed |
| Histogram.DecodeEnvAt | opc/__init__.py:481-506 | the middle section decoded from bytes 36..48 carries each field at its payload offset |
| Histogram.DecodedIsWellFormed | opc/__init__.py:460-525 | a decoded reading has 16 bins below 2^16 matching the checksum, times of flight in thirds of a microsecond, and four-byte words |
| Histogram.BinsRoundTrip | opc/__init__.py:460-475 | decoding the bytes of 16 bins gives the bins back |
| Histogram.MtofRoundTrip | opc/__init__.py:476-479 | decoding the encoded times of flight gives them back |
| Histogram.EnvRoundTrip | opc/__init__.py:481-506 | decoding the encoded middle section gives it back under the matching layout |
| Histogram.SharedRoundTrip | opc/__init__.py:495-506 | the shared word written from a temperature, a pressure or neither resolves back to exactly that |
| Histogram.DecodeEncode | opc/__init__.py:460-525 | every well-formed reading survives encoding and decoding under the layout its version selects |
| Histogram.CorruptChecksumRejected | opc/__init__.py:508-519 | changing only the checksum field of a valid payload makes it rejected |
| Config.DecodeConfig | opc/__init__.py:309-339 | 15 bin boundaries from byte pairs, LaserDAC at 232, FanDAC at 233, TOF_SFR at 234 present exactly when the major is above 15 |
| Config.WordsRoundTrip | opc/__init__.py:315-325 | sixteen consecutive four-byte words are read back as written |
| Config.ConfigRoundTrip | opc/__init__.py:309-339 | a well-formed table encoded into 256 bytes decodes back to itself |
| Config.ConfigIgnoresUnusedBytes | opc/__init__.py:309-339 | bytes 30, 31 and 235..255 (and 234 up to major 15) do not affect the table |
| Config.DecodeConfig2 | opc/__init__.py:373-378 | three 16-bit fields from pairs 0-1, 2-3 and 6-7, and single bytes 4, 5 and 8 |
| Config.Config2Bijection | opc/__init__.py:373-378 | decoding and encoding the 9-byte table are inverse both ways |
| Config.DecodePotStatus | opc/__init__.py:735-740 | FanON, LaserON, FanDACVal and LaserDACVal are the four replies in order |
| Config.DecodePm | opc/__init__.py:840-842 | PM1 is read from bytes 0..4, PM2.5 from bytes 4..8 and PM10 from bytes 8..12 of the reply |
| Config.PmBijection | opc/__init__.py:840-842 | decoding the three PM words loses nothing: concatenating their bytes gives back the twelve replies, and decoding those gives back the words |
| OpcN2.ReadInfoString | opc/__init__.py:186-207 | sends 3F and 60 fillers and returns the 60 replies as characters; too short a script is a transport error that uses up the script; the firmware dictionary is untouched |
| OpcN2.HistogramAsWritten | opc/__init__.py:147-155 | below version 16 a completed exchange raises `TypeError` |
| OpcN2.ReadHistogram | opc/__init__.py:443-525 | sends 30 and 62 fillers; returns the decoding of the 62 replies under the current version, or raises when the version is unknown |
| OpcN2.HistogramLegacyFinding | opc/__init__.py:152 | on firmware 14 an all-zero payload is a valid reading, yet the written method raises |
| OpcN2.ReadConfig | opc/__init__.py:280-339 | sends 3C and 256 fillers and decodes the replies with the current major; an unknown major raises `TypeError`, too short a script a transport error |
| OpcN2.ReadConfig2 | opc/__init__.py:341-380 | refused below version 18 with nothing sent; otherwise 3D and 9 fillers, decoded into the second table |
| OpcN2.ReadPotStatus | opc/__init__.py:707-740 | refused below version 18 with nothing sent; otherwise 13 and 4 fillers, the replies in order |
| OpcN2.ReadSerialNumber | opc/__init__.py:742-765 | refused below version 18 with nothing sent; otherwise 10 and 60 fillers, the replies as characters |
| OpcN2.ReadPm | opc/__init__.py:807-842 | refused below version 18 with nothing sent; otherwise 32 and 12 fillers; PM1, PM2.5 and PM10 are read from replies 1..5, 5..9 and 9..13 |
| OpcN2.ReadFirmware | opc/__init__.py:780-805 | refused below version 18; otherwise 12 and two fillers, and the dictionary becomes the reported major, minor and version |
| OpcN2.DetectVersion | opc/__init__.py:55-69 | the value of the last non-overlapping `\d{3}` match of the first information string if it has one; otherwise the last digit of a second string; otherwise `FirmwareVersionError`, always so when fewer than 61 replies remain |
| OpcN2.DigitFallback | opc/__init__.py:61-69 | a second information string: its last digit when it has one, otherwise `FirmwareVersionError`; the dictionary is untouched |
| OpcN2.SetMajor | opc/__init__.py:71-78 | below 18 the detected version becomes the major; from 18 on the device's reported major and minor are stored, only the major when the replies end after it, and nothing but the detected version when they end sooner; from 18 on the channel shows the 12, 00, 00 transfers of `read_firmware`, cut short where the replies end |
| OpcN2.CheckRange | opc/__init__.py:242-246 | passes exactly when the major is known and within 14..18; an unknown major raises `TypeError` |
| OpcN2.Open | opc/__init__.py:239-246 | a built driver has a known version and a major within 14..18; detection failure raises `FirmwareVersionError` |
| OpcN2.OpenBeforeEighteen | opc/__init__.py:55-78 | a string naming 14..17 gives a driver whose major and version are that number, after exactly one information read |
| OpcN2.OpenFromEighteen | opc/__init__.py:71-78 | from 18 on the reported major and minor are stored, the reported major decides acceptance, and the session's channel has sent 3F, 60 fillers, then 12, 00, 00 |
| OpcN2.OpenRefusesOldFirmware | opc/__init__.py:242-246 | a string naming a version below 14 is refused |
| OpcN2.OpenWithoutVersion | opc/__init__.py:55-69 | two information strings without a usable digit make construction fail |
| OpcN2.DetectFromTriple | opc/__init__.py:57-58 | a three-digit run in the first string settles detection after exactly one information read, with no second read |
| OpcN2.DetectWithoutTriple | opc/__init__.py:57-62 | without a three-digit run, detection is exactly the digit fallback on the replies after the first string |
| OpcN2.FallbackWithoutDigit | opc/__init__.py:61-69 | a second string without a digit raises `FirmwareVersionError` |
| OpcN2.MajorFromDevice | opc/__init__.py:71-78 | from version 18 on, the range check sees the major the device reports and passes exactly when it is in 14..18 |
| LegacyOpc.OpenLegacy | opc.py:15-22 | a new driver has no firmware name and the given connection |
| LegacyOpc.Nesting | opc.py:41-43 | the number of parentheses a text leaves open, between minus and plus its length |
| LegacyOpc.NestingAppend | opc.py:41-43 | parenthesis depth adds up over consecutive pieces of a line |
| LegacyOpc.PressureParenthesisUnclosed | opc.py:35-45 | the parentheses of the pressure expression leave one open, so the following `def` does not parse; closing the `vals[3] << 24` term gives the layout of the temperature and period expressions, which closes |
| LegacyOpc.On | opc.py:55-62 | the same calls and acknowledgement as the packaged `on`; the firmware name is untouched |
| LegacyOpc.Off | opc.py:64-70 | the same calls and acknowledgement as the packaged `off` |
| LegacyOpc.CheckStatus | opc.py:72-76 | calls `[0xCF]`; True exactly when the reply is F3 |
| LegacyOpc.ReadInfoString | opc.py:78-101 | sends 3F and 60 fillers, returns the 60 replies after the command's as characters, and keeps characters 23..26 as the firmware name |
| LegacyOpc.ReadPayload | opc.py:118-127 | sends 30 and 62 fillers; the payload is the 62 replies after the command's reply; too short a script is a transport error |
| LegacyOpc.CalculateHist | opc.py:24-26 | a 16-bit value whose high byte is MSB and low byte is LSB |
| LegacyOpc.EnvFields | opc.py:35-45 | raises `IndexError` exactly when a slice holds fewer than four bytes; otherwise temperature, pressure and period from their little-endian words |
| LegacyOpc.EnvAsWritten | opc.py:150-152 | once the file parses, the three-byte slices always raise `IndexError` |
| LegacyOpc.Env | opc.py:150-152 | the four-byte fields at 36, 40 and 44 always decode |
| LegacyOpc.DecodeLegacy | opc.py:129-153 | bin i from bytes 2i+1 (high) and 2i (low), times of flight from 32..35, checksum from bytes 49 (high) and 48 (low), no validation |
| LegacyOpc.ReadHistogramAsWritten | opc.py:107-130 | once the file parses, the first helper call after the 63 transfers raises `TypeError` |
| LegacyOpc.ReadHistogram | opc.py:107-158 | sends 30 and 62 fillers and returns the decoding of the 62 replies |
| LegacyOpc.LegacyAgreesWithPackaged | opc.py:129-153 | below version 16, whenever the packaged decoder accepts a payload, both drivers agree on bins, times of flight, environment and checksum |
| LegacyOpc.EnvFinding | opc.py:150-152 | for every payload the written slices raise and the four-byte slices decode |

## Left out

- Bytes.CalculateFloat: only the length guard is modelled. The IEEE 754 single-precision value of the four bytes is not, so PM, SFR, the modern sampling period and the configuration weights are carried as raw words.
- Histogram.Decode: models `histogram(number_concentration=False)`. The default conversion divides every bin by SFR times the sampling period, which is floating-point arithmetic on IEEE values. On the legacy layout that division also reads the never-set `SFR` entry (a `KeyError`).
- Bytes.CalculateMtof: exact rational quotients stand in for the double-precision `/ 3.0`, `/ 10.0` and `/ 12e6`, and for the `float('{}.{}'.format(major, minor))` of `read_firmware` (`Firmware.ReportedVersion`). Rounding is not modelled; the version is only compared with 16 and 18, where the exact and rounded values agree.
- Commands.SetPower: the power is a natural number. In the source a negative power passes the intended range check and is handed to `xfer`; what the transport sends for it is not modelled, because the channel carries bytes.
- The `OPCN1` class is not part of this model. It duplicates the N2 decode without a checksum check, and its constructor is misspelt.
- `lookup_bin_boundary` and `calculate_bin_boundary` are not modelled. They depend on a lookup table that is not part of this model and on floating-point nearest matching.
- `write_config_variables`, `write_config_variables2` and `write_sn` are not modelled; they send nothing.
- `__calculatePM` in `opc.py` is a stub that returns True; the PM entries of the early driver are not kept.
- `readConfigVariables` in `opc.py` is not modelled; it does nothing.
- Sleeps, warnings, logging and `__repr__` are left out.
- The `xfer`-attribute and SPI-mode assertions of the constructor are left out. So is the `isinstance` check and the `print` in `opc.py`.
- The exception classes are modelled as `Wrappers.Error`. Their message texts are left out.
- Python 3 semantics are assumed. In Python 2, comparing a dictionary with 16 does not raise.
- LegacyOpc: `opc.py` does not parse as it stands, because a parenthesis opened at line 41 is never closed (see Findings). Every `LegacyOpc` member models the file with that parenthesis closed, and the two as-written findings of `opc.py` describe what that repaired file would do.
- OpcN2.Open: when the firmware read succeeds only part way during construction, the exception is swallowed. The major already stored is kept beside the detected version; the model states only the range of that major.

## Findings

| source | as written | input that shows it | evidently intended | confidence | as-written member | corrected member |
|---|---|---|---|---|---|---|
| opc/__init__.py:609 | `set_fan_power` and `set_laser_power` test the undefined name `value`, so every call raises `NameError` | `set_fan_power(200)` with replies F3 42 00 | test `power > 255`, then send 42, channel, power | high, not executed | Commands.SetPowerAsWritten | Commands.SetPower |
| opc/__init__.py:592 | `_enter_bootloader_mode` passes the integer 0x41 to `xfer`, which needs a list, so it raises `TypeError` | any call, e.g. reply F3 | `xfer([0x41])` | high, not executed | Commands.EnterBootloaderAsWritten | Commands.EnterBootloader |
| opc/__init__.py:152 | `_calculate_period` compares the whole `firmware` dictionary with 16, so on firmware below 16 `histogram()` raises `TypeError` after the transfer | firmware 14, payload of 62 zero bytes | compare `self.firmware['version']` with 16 and return the tick count over 12 MHz | high, not executed | OpcN2.HistogramAsWritten | OpcN2.ReadHistogram |
| opc.py:41 | the expression `__calculatePressure` returns opens four parentheses and closes three, so the `def` at line 43 is a syntax error and `opc.py` cannot be imported | importing `opc.py` | close the `vals[3] << 24` term, as in the temperature and period helpers | high, not executed | LegacyOpc.PressureParenthesisUnclosed | LegacyOpc.EnvFields |
| opc.py:130 | once line 41 is repaired, the private helpers are declared without `self` but called as methods, so `readHistogram` raises `TypeError` at the first bin | any 62-byte payload | plain (static) helper functions of their declared parameters | high, not executed | LegacyOpc.ReadHistogramAsWritten | LegacyOpc.ReadHistogram |
| opc.py:150-152 | once the helpers are reached, temperature, pressure and period are computed from three-byte slices, so `vals[3]` raises `IndexError` | any 62-byte payload | slices `resp[36:40]`, `resp[40:44]`, `resp[44:48]` | high, not executed | LegacyOpc.EnvAsWritten | LegacyOpc.Env |

=== FILE: bytes.dfy ===
/**
 The byte codec of the OPC helpers: 16-bit and 32-bit little-endian assembly
 from received bytes, and the scalings applied to those values.
 */
module Bytes {
  import opened Wrappers

  /** What one SPI transfer carries in each direction. */
  type Byte = x: int | 0 <= x < 256

  const TWO_16: nat := 0x1_0000
  const TWO_32: nat := 0x1_0000_0000

  /**
   `_16bit_unsigned(LSB, MSB)`: `(MSB << 8) | LSB`. On bytes the shifted high
   byte and the low byte occupy disjoint bits, so the `|` is an addition.
   The result is a 16-bit value whose low byte is `lsb` and high byte `msb`.
   */
  function U16(lsb: Byte, msb: Byte): (r: nat)
    ensures r < TWO_16
    ensures r % 256 == lsb && r / 256 == msb
  {
    msb * 256 + lsb
  }

  /**
   `(vals[3] << 24) | (vals[2] << 16) | (vals[1] << 8) | vals[0]`: the
   little-endian unsigned 32-bit value of four bytes.
   */
  function U32(b0: Byte, b1: Byte, b2: Byte, b3: Byte): (r: nat)
    ensures r < TWO_32
    ensures r % 256 == b0 && r / 256 % 256 == b1 && r / 0x1_0000 % 256 == b2 && r / 0x100_0000 == b3
  {
    ((b3 * 256 + b2) * 256 + b1) * 256 + b0
  }

  /** The two bytes, low first, that `U16` combines back into `v`. */
  function U16Bytes(v: nat): (r: seq<Byte>)
    requires v < TWO_16
    ensures |r| == 2 && U16(r[0], r[1]) == v
  {
    [v % 256, v / 256]
  }

  /** The four bytes, least significant first, that `U32` combines back into `v`. */
  function U32Bytes(v: nat): (r: seq<Byte>)
    requires v < TWO_32
    ensures |r| == 4 && U32(r[0], r[1], r[2], r[3]) == v
  {
    var q1 := v / 256;
    var q2 := q1 / 256;
    var q3 := q2 / 256;
    assert v == q1 * 256 + v % 256;
    assert q1 == q2 * 256 + q1 % 256;
    assert q2 == q3 * 256 + q2 % 256;
    [v % 256, q1 % 256, q2 % 256, q3]
  }

  /** Swapping the arguments of `U16` changes the value unless both bytes are equal. */
  lemma U16Order(a: Byte, b: Byte)
    ensures U16(a, b) == U16(b, a) <==> a == b
  {
  }

  /** `U16` loses nothing: equal values come from equal byte pairs. */
  lemma U16Injective(a: Byte, b: Byte, c: Byte, d: Byte)
    ensures U16(a, b) == U16(c, d) <==> a == c && b == d
  {
  }

  /**
   The four bytes of an IEEE 754 single-precision value, in wire order.
   Their interpretation as a floating-point number is not modelled; the
   model carries the word unchanged from the payload to the caller.
   */
  datatype F32 = F32(bits: seq<Byte>)

  /** `_calculate_float`: only a slice of exactly four bytes yields a value. */
  function CalculateFloat(vals: seq<Byte>): (r: Option<F32>)
    ensures r.None? <==> |vals| != 4
    ensures r.Some? ==> r.value.bits == vals
  {
    if |vals| != 4 then None else Some(F32(vals))
  }

  /**
   `_calculate_pressure`: fewer than four bytes give `None`; otherwise the
   first four bytes, least significant first, are the pressure in pascals
   and any further bytes are ignored.
   */
  function CalculatePressure(vals: seq<Byte>): (r: Option<nat>)
    ensures r.None? <==> |vals| < 4
    ensures r.Some? ==> r.value < TWO_32 && U32Bytes(r.value) == vals[..4]
  {
    if |vals| < 4 then None else Some(U32(vals[0], vals[1], vals[2], vals[3]))
  }

  /** `_calculate_temp`: the same 32-bit value, read as tenths of a degree Celsius. */
  function CalculateTemp(vals: seq<Byte>): (r: Option<real>)
    ensures r.None? <==> |vals| < 4
    ensures r.Some? ==> r.value * 10.0 == CalculatePressure(vals).value as real
  {
    if |vals| < 4 then None else Some(U32(vals[0], vals[1], vals[2], vals[3]) as real / 10.0)
  }

  /** `_calculate_mtof`: a time-of-flight byte in thirds of a microsecond, as microseconds. */
  function CalculateMtof(b: Byte): (r: real)
    ensures 0.0 <= r < 86.0 && r * 3.0 == b as real
  {
    b as real / 3.0
  }

  /** Pressure and temperature accept any slice of at least four bytes; the float decoder only one of exactly four. */
  lemma LengthGuardsDiffer(vals: seq<Byte>)
    requires |vals| > 4
    ensures CalculatePressure(vals).Some? && CalculateTemp(vals).Some? && CalculateFloat(vals).None?
  {
  }
}

=== FILE: commands.dfy ===
/**
 The control commands of the OPC-N2: each one sends a fixed sequence of
 `xfer` calls and reports success only when the replies follow the
 acknowledgement pattern of the protocol.
 */
module Commands {
  import opened Wrappers
  import opened Bytes
  import opened Transport

  /**
   A command as the protocol table gives it: the `xfer` calls in order, and
   for every byte shifted back the value it must have (`None`: not checked).
   */
  datatype Script = Script(calls: seq<seq<Byte>>, acks: seq<Option<Byte>>)

  /** All bytes of a list of `xfer` calls, in transfer order. */
  function Flatten(calls: seq<seq<Byte>>): (r: seq<Byte>)
  {
    if |calls| == 0 then [] else calls[0] + Flatten(calls[1..])
  }

  lemma FlattenPair(a: seq<Byte>, b: seq<Byte>)
    ensures Flatten([a, b]) == a + b
  {
    assert [a, b][1..] == [b];
    assert [b][1..] == [];
    assert Flatten([b]) == b + Flatten([]);
    assert b + [] == b;
  }

  /** One single-byte `xfer` call per byte. */
  function Singles(bytes: seq<Byte>): (calls: seq<seq<Byte>>)
    ensures |calls| == |bytes|
  {
    seq(|bytes|, i requires 0 <= i < |bytes| => [bytes[i]])
  }

  lemma {:induction false} FlattenSingles(bytes: seq<Byte>)
    ensures Flatten(Singles(bytes)) == bytes
    decreases |bytes|
  {
    if |bytes| > 0 {
      assert Singles(bytes)[1..] == Singles(bytes[1..]);
      FlattenSingles(bytes[1..]);
      assert bytes == [bytes[0]] + bytes[1..];
    }
  }

  /** The replies follow the acknowledgement pattern. */
  predicate Acknowledged(acks: seq<Option<Byte>>, replies: seq<Byte>)
  {
    && |replies| == |acks|
    && forall i :: 0 <= i < |acks| && acks[i].Some? ==> replies[i] == acks[i].value
  }

  /**
   `r` is what running `sc` on `ch` must produce: it succeeds exactly when the
   script has a reply for every byte, then makes exactly the calls of `sc`,
   consumes one reply per byte sent, and answers whether they acknowledge.
   */
  predicate Performs(r: Reply<Channel, bool>, sc: Script, ch: Channel)
  {
    var n := |Flatten(sc.calls)|;
    && (r.result.Ok? <==> n <= |ch.replies|)
    && (r.result.Err? ==> r.result.error == TransportError)
    && (r.result.Ok? ==>
          && r.result.value == Acknowledged(sc.acks, ch.replies[..n])
          && r.after == Channel(ch.replies[n..], ch.sent + sc.calls))
  }

  const ACK: Byte := 0xF3

  const ON_SCRIPT := Script([[0x03], [0x00, 0x01]], [Some(ACK), Some(0x03), None])
  const OFF_SCRIPT := Script([[0x03], [0x01]], [Some(ACK), Some(0x03)])
  const PING_SCRIPT := Script([[0xCF]], [Some(ACK)])
  const SAVE_SCRIPT := Script([[0x43], [0x3F], [0x3C], [0x3F], [0x3C], [0x43]],
                              [Some(ACK), Some(0x43), Some(0x3F), Some(0x3C), Some(0x3F), Some(0x3C)])
  const BOOTLOADER_SCRIPT := Script([[0x41]], [Some(ACK)])

  /** `toggle_laser(state)`: 0x03 then 0x02 (on) or 0x03 (off); the acknowledgement does not depend on the state. */
  function LaserScript(state: bool): Script
  {
    Script([[0x03], [if state then 0x02 else 0x03]], [Some(ACK), Some(0x03)])
  }

  /** `toggle_fan(state)`: 0x03 then 0x04 (on) or 0x05 (off). */
  function FanScript(state: bool): Script
  {
    Script([[0x03], [if state then 0x04 else 0x05]], [Some(ACK), Some(0x03)])
  }

  /** `set_fan_power` (`channel` 0) and `set_laser_power` (`channel` 1): 0x42, the channel, the power byte. */
  function PowerScript(channel: Byte, power: Byte): Script
  {
    Script([[0x42], [channel], [power]], [Some(ACK), Some(0x42), Some(channel)])
  }

  /** Two one-byte calls, their replies compared with `a` and `b`. */
  function TwoStep(ch: Channel, first: Byte, second: Byte, a: Byte, b: Byte): (r: Reply<Channel, bool>)
  {
    var x := Xfer1(ch, first);
    if x.result.Err? then Reply(Err(x.result.error), x.after)
    else
      var y := Xfer1(x.after, second);
      if y.result.Err? then Reply(Err(y.result.error), y.after)
      else Reply(Ok(x.result.value == a && y.result.value == b), y.after)
  }

  /** `on`: `xfer([0x03])`, then `xfer([0x00, 0x01])`; the reply to 0x01 is ignored. */
  function PowerOn(ch: Channel): (r: Reply<Channel, bool>)
    ensures Performs(r, ON_SCRIPT, ch)
  {
    var x := Xfer1(ch, 0x03);
    if x.result.Err? then Reply(Err(x.result.error), x.after)
    else
      var y := Xfer(x.after, [0x00, 0x01]);
      if y.result.Err? then Reply(Err(y.result.error), y.after)
      else Reply(Ok(x.result.value == ACK && y.result.value[0] == 0x03), y.after)
  }

  /** `off`: `xfer([0x03])`, then `xfer([0x01])`. */
  function PowerOff(ch: Channel): (r: Reply<Channel, bool>)
    ensures Performs(r, OFF_SCRIPT, ch)
  {
    TwoStep(ch, 0x03, 0x01, ACK, 0x03)
  }

  /** `ping`: the single reply to 0xCF must be the acknowledgement byte. */
  function Ping(ch: Channel): (r: Reply<Channel, bool>)
    ensures Performs(r, PING_SCRIPT, ch)
  {
    var x := Xfer1(ch, 0xCF);
    if x.result.Err? then Reply(Err(x.result.error), x.after)
    else Reply(Ok(x.result.value == ACK), x.after)
  }

  /** `toggle_laser(state)`. */
  function ToggleLaser(ch: Channel, state: bool): (r: Reply<Channel, bool>)
    ensures Performs(r, LaserScript(state), ch)
  {
    FlattenPair([0x03], [if state then 0x02 else 0x03]);
    TwoStep(ch, 0x03, if state then 0x02 else 0x03, ACK, 0x03)
  }

  /** `toggle_fan(state)`. */
  function ToggleFan(ch: Channel, state: bool): (r: Reply<Channel, bool>)
    ensures Performs(r, FanScript(state), ch)
  {
    FlattenPair([0x03], [if state then 0x04 else 0x05]);
    TwoStep(ch, 0x03, if state then 0x04 else 0x05, ACK, 0x03)
  }

  /**
   The toggles acknowledge the same way whichever state is requested: on
   the same replies, switching on and switching off report the same outcome.
   */
  lemma ToggleOutcomeIgnoresState(ch: Channel)
    ensures ToggleLaser(ch, true).result == ToggleLaser(ch, false).result
    ensures ToggleFan(ch, true).result == ToggleFan(ch, false).result
  {
  }

  /** The loop `for each in byte_list: resp.append(xfer([each])[0])`. */
  function SendEach(ch: Channel, bytes: seq<Byte>): (r: Reply<Channel, seq<Byte>>)
    ensures r.result.Ok? <==> |bytes| <= |ch.replies|
    ensures r.result.Err? ==> r.result.error == TransportError
    ensures r.result.Ok? ==>
      && r.result.value == ch.replies[..|bytes|]
      && r.after == Channel(ch.replies[|bytes|..], ch.sent + Singles(bytes))
    decreases |bytes|
  {
    if |bytes| == 0 then Reply(Ok([]), ch)
    else
      var x := Xfer1(ch, bytes[0]);
      if x.result.Err? then Reply(Err(x.result.error), x.after)
      else
        var rest := SendEach(x.after, bytes[1..]);
        if rest.result.Err? then rest
        else Reply(Ok([x.result.value] + rest.result.value), rest.after)
  }

  /**
   `save_config_variables`: 0x43, then 0x3F 0x3C 0x3F 0x3C 0x43 one byte per
   call; success when the six replies are exactly F3 43 3F 3C 3F 3C.
   */
  function SaveConfig(ch: Channel): (r: Reply<Channel, bool>)
    ensures Performs(r, SAVE_SCRIPT, ch)
  {
    var bytes: seq<Byte> := [0x43, 0x3F, 0x3C, 0x3F, 0x3C, 0x43];
    FlattenSingles(bytes);
    assert SAVE_SCRIPT.calls == Singles(bytes);
    var resp := SendEach(ch, bytes);
    if resp.result.Err? then Reply(Err(resp.result.error), resp.after)
    else Reply(Ok(resp.result.value == [ACK, 0x43, 0x3F, 0x3C, 0x3F, 0x3C]), resp.after)
  }

  /**
   `set_fan_power` / `set_laser_power` as written: the range check reads the
   undefined name `value`, so every call raises `NameError` before any
   transfer, whatever the power.
   */
  function SetPowerAsWritten(ch: Channel, channel: Byte, power: int): (r: Reply<Channel, bool>)
    ensures r.result == Err(NameError) && r.after == ch
  {
    Reply(Err(NameError), ch)
  }

  /**
   `set_fan_power` (`channel` 0) and `set_laser_power` (`channel` 1) with the
   range check on `power`: a power above 255 is refused with `ValueError`
   before any transfer; otherwise 0x42, the channel and the power are sent
   one per call and the replies must be F3 42 and the channel byte.
   */
  function SetPower(ch: Channel, channel: Byte, power: nat): (r: Reply<Channel, bool>)
    ensures power > 255 ==> r.result == Err(ValueError) && r.after == ch
    ensures power <= 255 ==> Performs(r, PowerScript(channel, power), ch)
  {
    if power > 255 then Reply(Err(ValueError), ch)
    else
      var bytes: seq<Byte> := [0x42, channel, power];
      FlattenSingles(bytes);
      assert PowerScript(channel, power).calls == Singles(bytes);
      var resp := SendEach(ch, bytes);
      if resp.result.Err? then Reply(Err(resp.result.error), resp.after)
      else
        var abc := resp.result.value;
        Reply(Ok(abc[0] == ACK && abc[1] == 0x42 && abc[2] == channel), resp.after)
  }

  /** `_enter_bootloader_mode` as written: `xfer(0x41)` hands the transport an integer instead of a list, which it refuses with `TypeError`. */
  function EnterBootloaderAsWritten(ch: Channel): (r: Reply<Channel, bool>)
    ensures r.result == Err(TypeError) && r.after == ch
  {
    Reply(Err(TypeError), ch)
  }

  /** `_enter_bootloader_mode` with `xfer([0x41])`: success when the reply is the acknowledgement byte. */
  function EnterBootloader(ch: Channel): (r: Reply<Channel, bool>)
    ensures Performs(r, BOOTLOADER_SCRIPT, ch)
  {
    var x := Xfer1(ch, 0x41);
    if x.result.Err? then Reply(Err(x.result.error), x.after)
    else Reply(Ok(x.result.value == ACK), x.after)
  }

  /** The fan power call that the written range check prevents: with the replies F3 42 00 the corrected call succeeds. */
  lemma SetFanPowerFinding()
    ensures var ch := Channel([0xF3, 0x42, 0x00], []);
      && SetPowerAsWritten(ch, 0x00, 200).result == Err(NameError)
      && SetPower(ch, 0x00, 200) == Reply(Ok(true), Channel([], [[0x42], [0x00], [200]]))
  {
    var ch := Channel([0xF3, 0x42, 0x00], []);
    var r := SetPower(ch, 0x00, 200);
    FlattenSingles([0x42, 0x00, 200]);
    assert PowerScript(0x00, 200).calls == Singles([0x42, 0x00, 200]);
    assert ch.replies[..3] == [0xF3, 0x42, 0x00];
    assert ch.replies[3..] == [];
    assert Acknowledged(PowerScript(0x00, 200).acks, ch.replies[..3]);
    var calls: seq<seq<Byte>> := [[0x42], [0x00], [200]];
    assert Singles([0x42, 0x00, 200]) == calls;
    assert ch.sent + calls == calls;
  }

  /** The bootloader request that the written call never transmits: with the reply F3 the corrected call succeeds. */
  lemma EnterBootloaderFinding()
    ensures var ch := Channel([0xF3], []);
      && EnterBootloaderAsWritten(ch).result == Err(TypeError)
      && EnterBootloader(ch) == Reply(Ok(true), Channel([], [[0x41]]))
  {
    var ch := Channel([0xF3], []);
    var calls: seq<seq<Byte>> := [[0x41]];
    assert ch.replies[1..] == [];
    assert ch.sent + calls == calls;
  }
}

=== FILE: config.dfy ===
/**
 The configuration tables of the OPC-N2: the 256-byte table read by
 `config` and the 9-byte table read by `config2`, plus the 4-byte digital
 pot status and the 12-byte PM payload.
 */
module Config {
  import opened Wrappers
  import opened Bytes

  const CONFIG_LEN: nat := 256
  const CONFIG2_LEN: nat := 9
  const BOUNDARY_COUNT: nat := 15

  /** The dictionary `config` returns; floats are carried as their raw words. */
  datatype ConfigTable = ConfigTable(
    binBoundaries: seq<nat>,  // Bin Boundary 0 .. 14
    bpv: seq<F32>,            // BPV 0 .. 15
    bpd: seq<F32>,            // BPD 0 .. 15
    bsvw: seq<F32>,           // BSVW 0 .. 15
    gsc: F32,
    sfr: F32,
    laserDac: Byte,
    fanDac: Byte,
    tofSfr: Option<Byte>)     // present from major version 16 on

  /** Sixteen four-byte words starting at `offset`, as `_calculate_float(config[4*i + offset:4*i + offset + 4])`. */
  function Words(c: seq<Byte>, offset: nat): (ws: seq<F32>)
    requires offset + 64 <= |c|
    ensures |ws| == 16
    ensures forall i :: 0 <= i < 16 ==> ws[i].bits == c[offset + 4 * i..offset + 4 * i + 4]
  {
    seq(16, i requires 0 <= i < 16 => CalculateFloat(c[offset + 4 * i..offset + 4 * i + 4]).value)
  }

  /**
   `config`: bin boundaries from byte pairs 0..29, the float tables at 32, 96
   and 160, GSC at 224, SFR at 228, the laser and fan DACs at 232 and 233,
   and TOF_SFR at 234 only when the major version is above 15.
   */
  function DecodeConfig(c: seq<Byte>, major: int): (t: ConfigTable)
    requires |c| == CONFIG_LEN
    ensures |t.binBoundaries| == BOUNDARY_COUNT
    ensures forall i :: 0 <= i < BOUNDARY_COUNT ==> t.binBoundaries[i] == U16(c[2 * i], c[2 * i + 1])
    ensures t.laserDac == c[232] && t.fanDac == c[233]
    ensures t.tofSfr.Some? <==> major > 15
    ensures t.tofSfr.Some? ==> t.tofSfr.value == c[234]
    ensures ConfigWellFormed(t)
  {
    ConfigTable(
      seq(BOUNDARY_COUNT, i requires 0 <= i < BOUNDARY_COUNT => U16(c[2 * i], c[2 * i + 1])),
      Words(c, 32), Words(c, 96), Words(c, 160),
      CalculateFloat(c[224..228]).value, CalculateFloat(c[228..232]).value,
      c[232], c[233],
      if major > 15 then Some(c[234]) else None)
  }

  /** A table the 256 bytes can carry. */
  predicate ConfigWellFormed(t: ConfigTable)
  {
    && |t.binBoundaries| == BOUNDARY_COUNT
    && (forall i :: 0 <= i < BOUNDARY_COUNT ==> t.binBoundaries[i] < TWO_16)
    && |t.bpv| == 16 && |t.bpd| == 16 && |t.bsvw| == 16
    && (forall i :: 0 <= i < 16 ==> |t.bpv[i].bits| == 4 && |t.bpd[i].bits| == 4 && |t.bsvw[i].bits| == 4)
    && |t.gsc.bits| == 4 && |t.sfr.bits| == 4
  }

  function WordBytes(ws: seq<F32>): (b: seq<Byte>)
    requires |ws| == 16 && forall i :: 0 <= i < 16 ==> |ws[i].bits| == 4
    ensures |b| == 64
    ensures forall i, k :: 0 <= i < 16 && 0 <= k < 4 ==> b[4 * i + k] == ws[i].bits[k]
  {
    seq(64, n requires 0 <= n < 64 => ws[n / 4].bits[n % 4])
  }

  function BoundaryBytes(bounds: seq<nat>): (b: seq<Byte>)
    requires |bounds| == BOUNDARY_COUNT && forall i :: 0 <= i < BOUNDARY_COUNT ==> bounds[i] < TWO_16
    ensures |b| == 30
    ensures forall i :: 0 <= i < BOUNDARY_COUNT ==> U16(b[2 * i], b[2 * i + 1]) == bounds[i]
  {
    var b := seq(30, n requires 0 <= n < 30 => if n % 2 == 0 then bounds[n / 2] % 256 else bounds[n / 2] / 256);
    assert forall i :: 0 <= i < BOUNDARY_COUNT ==> (2 * i) / 2 == i && (2 * i + 1) / 2 == i && (2 * i + 1) % 2 == 1;
    b
  }

  /** Equal bytes in `lo..hi` give equal slices. */
  lemma SameSlice(c: seq<Byte>, c': seq<Byte>, lo: nat, hi: nat)
    requires lo <= hi <= |c| && hi <= |c'|
    requires forall n :: lo <= n < hi ==> c[n] == c'[n]
    ensures c[lo..hi] == c'[lo..hi]
  {
  }

  /** The 256 bytes for `t`; bytes the table does not use (30, 31, 235..255, and 234 without TOF_SFR) are zero. */
  function EncodeConfig(t: ConfigTable): (c: seq<Byte>)
    requires ConfigWellFormed(t)
    ensures |c| == CONFIG_LEN
  {
    BoundaryBytes(t.binBoundaries) + [0, 0] + WordBytes(t.bpv) + WordBytes(t.bpd) + WordBytes(t.bsvw)
      + t.gsc.bits + t.sfr.bits + [t.laserDac, t.fanDac]
      + [if t.tofSfr.Some? then t.tofSfr.value else 0] + seq(21, _ => 0)
  }

  lemma WordsRoundTrip(c: seq<Byte>, offset: nat, ws: seq<F32>)
    requires offset + 64 <= |c|
    requires |ws| == 16 && forall i :: 0 <= i < 16 ==> |ws[i].bits| == 4
    requires c[offset..offset + 64] == WordBytes(ws)
    ensures Words(c, offset) == ws
  {
    forall i | 0 <= i < 16
      ensures Words(c, offset)[i] == ws[i]
    {
      WordAt(c, offset, ws, i);
    }
  }

  /** Word `i` of the table sits at bytes `offset + 4 * i` to `offset + 4 * i + 4`. */
  lemma WordAt(c: seq<Byte>, offset: nat, ws: seq<F32>, i: nat)
    requires offset + 64 <= |c| && i < 16
    requires |ws| == 16 && forall j :: 0 <= j < 16 ==> |ws[j].bits| == 4
    requires c[offset..offset + 64] == WordBytes(ws)
    ensures c[offset + 4 * i..offset + 4 * i + 4] == ws[i].bits
  {
    forall k | 0 <= k < 4
      ensures c[offset + 4 * i + k] == ws[i].bits[k]
    {
      assert c[offset + 4 * i + k] == c[offset..offset + 64][4 * i + k];
    }
  }

  /**
   Decoding the bytes of a table gives the table back, when the firmware's
   major version agrees with whether the table has TOF_SFR.
   */
  lemma ConfigRoundTrip(t: ConfigTable, major: int)
    requires ConfigWellFormed(t)
    requires t.tofSfr.Some? <==> major > 15
    ensures DecodeConfig(EncodeConfig(t), major) == t
  {
    BoundariesRoundTrip(t, major);
    TablesRoundTrip(t, major);
    TailRoundTrip(t, major);
  }

  lemma BoundariesRoundTrip(t: ConfigTable, major: int)
    requires ConfigWellFormed(t)
    ensures DecodeConfig(EncodeConfig(t), major).binBoundaries == t.binBoundaries
  {
    var c := EncodeConfig(t);
    var d := DecodeConfig(c, major);
    var b := BoundaryBytes(t.binBoundaries);
    assert c[..30] == b;
    forall i | 0 <= i < BOUNDARY_COUNT
      ensures d.binBoundaries[i] == t.binBoundaries[i]
    {
      assert c[2 * i] == b[2 * i] && c[2 * i + 1] == b[2 * i + 1];
    }
  }

  lemma TablesRoundTrip(t: ConfigTable, major: int)
    requires ConfigWellFormed(t)
    ensures var d := DecodeConfig(EncodeConfig(t), major);
      d.bpv == t.bpv && d.bpd == t.bpd && d.bsvw == t.bsvw
  {
    var c := EncodeConfig(t);
    assert c[32..96] == WordBytes(t.bpv);
    WordsRoundTrip(c, 32, t.bpv);
    assert c[96..160] == WordBytes(t.bpd);
    WordsRoundTrip(c, 96, t.bpd);
    assert c[160..224] == WordBytes(t.bsvw);
    WordsRoundTrip(c, 160, t.bsvw);
  }

  lemma TailRoundTrip(t: ConfigTable, major: int)
    requires ConfigWellFormed(t)
    requires t.tofSfr.Some? <==> major > 15
    ensures var d := DecodeConfig(EncodeConfig(t), major);
      && d.gsc == t.gsc && d.sfr == t.sfr && d.laserDac == t.laserDac && d.fanDac == t.fanDac
      && d.tofSfr == t.tofSfr
  {
    var c := EncodeConfig(t);
    assert c[224..228] == t.gsc.bits && c[228..232] == t.sfr.bits;
  }

  /**
   No checksum guards the table: the decoder reads only its fields, so bytes
   30, 31 and 235..255 never change the result, and byte 234 matters only
   from major version 16 on.
   */
  lemma ConfigIgnoresUnusedBytes(c: seq<Byte>, c': seq<Byte>, major: int)
    requires |c| == CONFIG_LEN && |c'| == CONFIG_LEN
    requires c[..30] == c'[..30] && c[32..234] == c'[32..234]
    requires major > 15 ==> c[234] == c'[234]
    ensures DecodeConfig(c, major) == DecodeConfig(c', major)
  {
    assert forall n :: 0 <= n < 30 ==> c[n] == c'[n] by {
      forall n | 0 <= n < 30 ensures c[n] == c'[n] { assert c[..30][n] == c'[..30][n]; }
    }
    assert forall n :: 32 <= n < 234 ==> c[n] == c'[n] by {
      forall n | 32 <= n < 234 ensures c[n] == c'[n] { assert c[32..234][n - 32] == c'[32..234][n - 32]; }
    }
    SameSlice(c, c', 224, 228);
    SameSlice(c, c', 228, 232);
    forall i | 0 <= i < 16
      ensures c[32 + 4 * i..32 + 4 * i + 4] == c'[32 + 4 * i..32 + 4 * i + 4]
      ensures c[96 + 4 * i..96 + 4 * i + 4] == c'[96 + 4 * i..96 + 4 * i + 4]
      ensures c[160 + 4 * i..160 + 4 * i + 4] == c'[160 + 4 * i..160 + 4 * i + 4]
    {
      SameSlice(c, c', 32 + 4 * i, 32 + 4 * i + 4);
      SameSlice(c, c', 96 + 4 * i, 96 + 4 * i + 4);
      SameSlice(c, c', 160 + 4 * i, 160 + 4 * i + 4);
    }
    assert Words(c, 32) == Words(c', 32);
    assert Words(c, 96) == Words(c', 96);
    assert Words(c, 160) == Words(c', 160);
  }

  /** The dictionary `config2` returns. */
  datatype Config2Table = Config2Table(
    samplingInterval: nat,      // AMSamplingInterval
    idleIntervalCount: nat,     // AMIdleIntervalCount
    fanOnIdle: Byte,            // AMFanOnIdle
    laserOnIdle: Byte,          // AMLaserOnIdle
    maxDataArraysInFile: nat,   // AMMaxDataArraysInFile
    onlySavePmData: Byte)       // AMOnlySavePMData

  /** `config2`: 16-bit fields from byte pairs (0,1), (2,3) and (6,7); single bytes 4, 5 and 8. */
  function DecodeConfig2(c: seq<Byte>): (t: Config2Table)
    requires |c| == CONFIG2_LEN
    ensures t.samplingInterval == U16(c[0], c[1])
    ensures t.idleIntervalCount == U16(c[2], c[3])
    ensures t.maxDataArraysInFile == U16(c[6], c[7])
    ensures t.fanOnIdle == c[4] && t.laserOnIdle == c[5] && t.onlySavePmData == c[8]
  {
    Config2Table(U16(c[0], c[1]), U16(c[2], c[3]), c[4], c[5], U16(c[6], c[7]), c[8])
  }

  predicate Config2WellFormed(t: Config2Table)
  {
    t.samplingInterval < TWO_16 && t.idleIntervalCount < TWO_16 && t.maxDataArraysInFile < TWO_16
  }

  function EncodeConfig2(t: Config2Table): (c: seq<Byte>)
    requires Config2WellFormed(t)
    ensures |c| == CONFIG2_LEN
  {
    U16Bytes(t.samplingInterval) + U16Bytes(t.idleIntervalCount) + [t.fanOnIdle, t.laserOnIdle]
      + U16Bytes(t.maxDataArraysInFile) + [t.onlySavePmData]
  }

  /** Every byte of the 9-byte table is a field: decoding and encoding are inverse both ways. */
  lemma Config2Bijection(c: seq<Byte>, t: Config2Table)
    requires |c| == CONFIG2_LEN
    requires Config2WellFormed(t)
    ensures Config2WellFormed(DecodeConfig2(c))
    ensures EncodeConfig2(DecodeConfig2(c)) == c
    ensures DecodeConfig2(EncodeConfig2(t)) == t
  {
    var e := EncodeConfig2(DecodeConfig2(c));
    assert e[0] == c[0] && e[1] == c[1] && e[2] == c[2] && e[3] == c[3];
    assert e[6] == c[6] && e[7] == c[7];
  }

  /** The dictionary `read_pot_status` returns. */
  datatype PotStatus = PotStatus(fanOn: Byte, laserOn: Byte, fanDacVal: Byte, laserDacVal: Byte)

  function DecodePotStatus(res: seq<Byte>): (p: PotStatus)
    requires |res| == 4
    ensures [p.fanOn, p.laserOn, p.fanDacVal, p.laserDacVal] == res
  {
    PotStatus(res[0], res[1], res[2], res[3])
  }

  /** The dictionary `pm` returns: three float words. */
  datatype PmReading = PmReading(pm1: F32, pm25: F32, pm10: F32)

  /** PM1 from bytes 0..4, PM2.5 from 4..8 and PM10 from 8..12. */
  function DecodePm(resp: seq<Byte>): (p: PmReading)
    requires |resp| == 12
    ensures p.pm1.bits == resp[0..4] && p.pm25.bits == resp[4..8] && p.pm10.bits == resp[8..]
    ensures PmWellFormed(p)
  {
    PmReading(CalculateFloat(resp[0..4]).value, CalculateFloat(resp[4..8]).value, CalculateFloat(resp[8..]).value)
  }

  /** A PM record a payload can carry: three four-byte words. */
  predicate PmWellFormed(p: PmReading)
  {
    |p.pm1.bits| == 4 && |p.pm25.bits| == 4 && |p.pm10.bits| == 4
  }

  /** The 12 bytes the device sends for `p`. */
  function EncodePm(p: PmReading): (resp: seq<Byte>)
    requires PmWellFormed(p)
    ensures |resp| == 12
  {
    p.pm1.bits + p.pm25.bits + p.pm10.bits
  }

  /** Every byte of the PM record belongs to one word: decoding and encoding are inverse both ways. */
  lemma PmBijection(resp: seq<Byte>, p: PmReading)
    requires |resp| == 12
    requires PmWellFormed(p)
    ensures EncodePm(DecodePm(resp)) == resp
    ensures DecodePm(EncodePm(p)) == p
  {
    var e := EncodePm(p);
    assert e[0..4] == p.pm1.bits && e[4..8] == p.pm25.bits && e[8..] == p.pm10.bits;
    assert resp[0..4] + resp[4..8] + resp[8..] == resp;
  }
}

=== FILE: decorators.dfy ===
/**
 The `requires_firmware(major)` decorator: a wrapped method runs only when
 the driver's firmware version is at least `major`.
 */
module Decorators {
  import opened Wrappers

  /**
   The decision `float(args[0].firmware['version']) < float(major)`:
   `float(None)` raises `TypeError`, a version below the threshold raises
   `FirmwareVersionError`, any other version lets the call through.
   */
  function Admit(version: Option<real>, major: real): (r: Result<()>)
    ensures r.Ok? <==> version.Some? && major <= version.value
    ensures r.Err? ==> r.error == (if version.None? then TypeError else FirmwareVersionError)
  {
    if version.None? then Err(TypeError)
    else if version.value < major then Err(FirmwareVersionError)
    else Ok(())
  }

  /**
   The decorated method: `f` applied to the object `self` when admitted;
   otherwise the error, with `self` exactly as it was, so that nothing was
   transferred. `version` is `self`'s firmware version.
   */
  function RequiresFirmware<S, T>(major: real, version: Option<real>, f: S -> Reply<S, T>, self: S): (r: Reply<S, T>)
    ensures Admit(version, major).Ok? ==> r == f(self)
    ensures Admit(version, major).Err? ==> r == Reply(Err(Admit(version, major).error), self)
  {
    match Admit(version, major)
    case Ok(_) => f(self)
    case Err(e) => Reply(Err(e), self)
  }

  /** The threshold is inclusive: a version equal to it passes. */
  lemma ThresholdInclusive<S, T>(major: real, f: S -> Reply<S, T>, self: S)
    ensures RequiresFirmware(major, Some(major), f, self) == f(self)
  {
  }

  /**
   A refused call never reaches the wrapped method: the outcome is the same
   whichever method is wrapped.
   */
  lemma RefusalNeverCallsMethod<S, T>(major: real, version: Option<real>, f: S -> Reply<S, T>, g: S -> Reply<S, T>, self: S)
    requires Admit(version, major).Err?
    ensures RequiresFirmware(major, version, f, self) == RequiresFirmware(major, version, g, self)
  {
  }
}

=== FILE: firmware.dfy ===
/**
 Firmware detection: the version number found in the 60-character
 information string, and the version reported by the read-firmware command.
 */
module Firmware {
  import opened Wrappers
  import opened Bytes

  /** The driver's `firmware` dictionary: `major`, `minor` and `version`, each possibly `None`. */
  datatype FirmwareInfo = FirmwareInfo(major: Option<int>, minor: Option<int>, version: Option<real>)

  const UNKNOWN := FirmwareInfo(None, None, None)

  /** A character `\d` matches; the information string only holds characters 0..255, among which these are the decimal digits. */
  predicate IsDigit(c: char)
  {
    '0' <= c <= '9'
  }

  function DigitValue(c: char): (d: nat)
    requires IsDigit(c)
    ensures d < 10
  {
    c as int - '0' as int
  }

  /** Three digits start at `p`: a place where `\d{3}` can match. */
  predicate TripleAt(s: string, p: int)
  {
    0 <= p && p + 3 <= |s| && IsDigit(s[p]) && IsDigit(s[p + 1]) && IsDigit(s[p + 2])
  }

  /** `int(s[p:p+3])` for a three-digit match. */
  function TripleValue(s: string, p: int): (v: nat)
    requires TripleAt(s, p)
    ensures v < 1000
  {
    100 * DigitValue(s[p]) + 10 * DigitValue(s[p + 1]) + DigitValue(s[p + 2])
  }

  /**
   The position of the last element of `re.findall("\d{3}", s)` when the
   scan starts at `i`: matches do not overlap, and after a match the scan
   resumes just past it. `None` when there is no match at all.
   */
  function LastTriple(s: string, i: nat): (r: Option<nat>)
    ensures r.None? <==> forall q :: i <= q ==> !TripleAt(s, q)
    ensures r.Some? ==>
      && i <= r.value
      && TripleAt(s, r.value)
      && forall q :: r.value + 3 <= q ==> !TripleAt(s, q)
    decreases |s| - i
  {
    if i + 3 > |s| then None
    else if TripleAt(s, i) then
      match LastTriple(s, i + 3)
      case Some(p) => Some(p)
      case None => Some(i)
    else LastTriple(s, i + 1)
  }

  /** The position of the last element of `re.findall("\d{1}", s[..n])`, i.e. of the last digit before `n`. */
  function LastDigit(s: string, n: nat): (r: Option<nat>)
    requires n <= |s|
    ensures r.None? <==> forall q :: 0 <= q < n ==> !IsDigit(s[q])
    ensures r.Some? ==>
      && r.value < n
      && IsDigit(s[r.value])
      && forall q :: r.value < q < n ==> !IsDigit(s[q])
  {
    if n == 0 then None
    else if IsDigit(s[n - 1]) then Some(n - 1)
    else LastDigit(s, n - 1)
  }

  /** `int(re.findall("\d{3}", s)[-1])`, or `None` where indexing the empty list raises. */
  function TripleVersion(s: string): (r: Option<nat>)
    ensures r.None? <==> forall q :: !TripleAt(s, q)
    ensures r.Some? ==> LastTriple(s, 0).Some? && r.value == TripleValue(s, LastTriple(s, 0).value)
    ensures r.Some? ==> r.value < 1000
  {
    match LastTriple(s, 0)
    case None => None
    case Some(p) => Some(TripleValue(s, p))
  }

  /** `int(re.findall("\d{1}", s)[-1])`, or `None` where indexing the empty list raises. */
  function DigitVersion(s: string): (r: Option<nat>)
    ensures r.None? <==> forall q :: 0 <= q < |s| ==> !IsDigit(s[q])
    ensures r.Some? ==> exists p :: && 0 <= p < |s| && IsDigit(s[p]) && r.value == DigitValue(s[p])
                                    && forall q :: p < q < |s| ==> !IsDigit(s[q])
    ensures r.Some? ==> r.value < 10
  {
    match LastDigit(s, |s|)
    case None => None
    case Some(p) => Some(DigitValue(s[p]))
  }

  /** The fallback version is the value of the digit that no other digit follows. */
  lemma DigitVersionIsLastDigit(s: string, p: nat)
    requires p < |s| && IsDigit(s[p])
    requires forall q :: p < q < |s| ==> !IsDigit(s[q])
    ensures DigitVersion(s) == Some(DigitValue(s[p]))
  {
    var r := LastDigit(s, |s|);
    assert r.Some?;
  }

  /** Matches do not overlap: in "12345" the only match is "123", so the version is 123 and not 345. */
  lemma TripleMatchesDoNotOverlap()
    ensures TripleVersion("12345") == Some(123)
  {
    assert TripleAt("12345", 0);
    assert !TripleAt("12345", 3);
    assert LastTriple("12345", 3) == None;
  }

  // ---------------------------------------------------------------------
  // The scan of `re.findall("\d{3}", s)` described by digit runs: a run
  // of L digits holds L / 3 matches, aligned at its start.
  // ---------------------------------------------------------------------

  /** `s[a..a + n]` is a run of `n` digits that no digit follows. */
  predicate RunEndsAt(s: string, a: nat, n: nat)
  {
    && a + n <= |s|
    && (forall q :: a <= q < a + n ==> IsDigit(s[q]))
    && (a + n == |s| || !IsDigit(s[a + n]))
  }

  /** The scan steps over a character that is not a digit. */
  lemma ScanSkipsNonDigit(s: string, i: nat)
    requires i < |s| && !IsDigit(s[i])
    ensures LastTriple(s, i) == LastTriple(s, i + 1)
  {
  }

  /** Fewer than three digits before the end of a run hold no match. */
  lemma ScanRunTail(s: string, b: nat, n: nat)
    requires RunEndsAt(s, b, n) && n < 3
    ensures LastTriple(s, b) == LastTriple(s, b + n)
    decreases n
  {
    if n > 0 {
      assert !TripleAt(s, b);
      assert RunEndsAt(s, b + 1, n - 1);
      ScanRunTail(s, b + 1, n - 1);
    }
  }

  /**
   A run of `n` digits starting where the scan stands: its last match is
   at `a + 3 * (n / 3 - 1)`, unless a later match follows the run.
   */
  lemma {:induction false} ScanDigitRun(s: string, a: nat, n: nat)
    requires RunEndsAt(s, a, n)
    ensures LastTriple(s, a) ==
      if LastTriple(s, a + n).Some? then LastTriple(s, a + n)
      else if n >= 3 then Some(a + 3 * (n / 3 - 1))
      else None
    decreases n
  {
    if n < 3 {
      ScanRunTail(s, a, n);
    } else {
      assert TripleAt(s, a);
      assert RunEndsAt(s, a + 3, n - 3);
      ScanDigitRun(s, a + 3, n - 3);
      assert a + 3 + (n - 3) == a + n;
      if n - 3 >= 3 {
        assert a + 3 + 3 * ((n - 3) / 3 - 1) == a + 3 * (n / 3 - 1);
      }
    }
  }

  /**
   The scan always lands on the first digit of a run: a match cannot
   straddle a non-digit, so a match found from `a` on is the match found
   from any earlier start.
   */
  lemma {:induction false} ScanReachesRunStart(s: string, i: nat, a: nat)
    requires i <= a <= |s|
    requires a == 0 || !IsDigit(s[a - 1])
    requires LastTriple(s, a).Some?
    ensures LastTriple(s, i) == LastTriple(s, a)
    decreases a - i
  {
    if i < a {
      if TripleAt(s, i) {
        assert i + 3 <= a;
        ScanReachesRunStart(s, i + 3, a);
      } else {
        ScanReachesRunStart(s, i + 1, a);
      }
    }
  }

  /**
   The detected version is read from the last run of three or more
   digits, at the last multiple of three from the run's start.
   */
  lemma LastRunVersion(s: string, a: nat, n: nat)
    requires a == 0 || (a <= |s| && !IsDigit(s[a - 1]))
    requires RunEndsAt(s, a, n) && n >= 3
    requires forall q :: a + n <= q ==> !TripleAt(s, q)
    ensures TripleAt(s, a + 3 * (n / 3 - 1))
    ensures TripleVersion(s) == Some(TripleValue(s, a + 3 * (n / 3 - 1)))
  {
    ScanDigitRun(s, a, n);
    ScanReachesRunStart(s, 0, a);
  }

  /** "1234" gives 123 and "0145" gives 14: the remaining digit never starts a match. */
  lemma RunRemainderIgnored()
    ensures TripleVersion("1234") == Some(123)
    ensures TripleVersion("0145") == Some(14)
  {
    assert !TripleAt("1234", 3) && !TripleAt("0145", 3);
    LastRunVersion("1234", 0, 4);
    LastRunVersion("0145", 0, 4);
  }

  function Pow10(k: nat): (p: nat)
    ensures p >= 1
  {
    if k == 0 then 1 else 10 * Pow10(k - 1)
  }

  /** The number of decimal digits `'{}'.format(n)` prints. */
  function NumDigits(n: nat): (k: nat)
    ensures k >= 1 && n < Pow10(k)
    ensures k == 1 || Pow10(k - 1) <= n
  {
    if n < 10 then 1 else 1 + NumDigits(n / 10)
  }

  /**
   `float('{}.{}'.format(major, minor))`, as read by `read_firmware`: the
   minor number's decimal digits become the fraction.
   */
  function ReportedVersion(major: Byte, minor: Byte): (v: real)
    ensures major as real <= v < major as real + 1.0
    ensures (v - major as real) * Pow10(NumDigits(minor)) as real == minor as real
  {
    var p := Pow10(NumDigits(minor));
    FractionBelowOne(minor, p);
    major as real + minor as real / p as real
  }

  lemma FractionBelowOne(n: nat, p: nat)
    requires n < p
    ensures 0.0 <= n as real / p as real < 1.0
  {
    var f := n as real / p as real;
    assert f * p as real == n as real;
  }

  /**
   The fraction has as many decimal places as the minor number has digits:
   "18.5" is 18 + 5/10, "18.25" is 18 + 25/100, "18.125" is 18 + 125/1000.
   */
  lemma ReportedVersionDecimals(major: Byte, minor: Byte)
    ensures minor < 10 ==> ReportedVersion(major, minor) * 10.0 == (10 * major + minor) as real
    ensures 10 <= minor < 100 ==> ReportedVersion(major, minor) * 100.0 == (100 * major + minor) as real
    ensures 100 <= minor ==> ReportedVersion(major, minor) * 1000.0 == (1000 * major + minor) as real
  {
    var v := ReportedVersion(major, minor);
    var k := NumDigits(minor);
    if minor < 10 {
      assert k == 1;
    } else if minor < 100 {
      assert NumDigits(minor / 10) == 1;
      assert k == 2;
    } else {
      assert NumDigits(minor / 100) == 1;
      assert NumDigits(minor / 10) == 2;
      assert k == 3;
    }
  }

  /** Minor numbers 1 and 10 print as "18.1" and "18.10", which are the same number. */
  lemma ReportedVersionConflatesMinors()
    ensures ReportedVersion(18, 1) == ReportedVersion(18, 10)
    ensures ReportedVersion(18, 2) == 18.2
  {
    assert NumDigits(10) == 2;
  }
}

=== FILE: histogram.dfy ===
/**
 The 62-byte histogram payload of the OPC-N2: sixteen 16-bit bin counts,
 four time-of-flight bytes, a 12-byte section whose layout depends on the
 firmware version, the 16-bit checksum and three PM words.
 */
module Histogram {
  import opened Wrappers
  import opened Bytes

  const PAYLOAD_LEN: nat := 62
  const BIN_COUNT: nat := 16

  /** The 12 bytes at offsets 36..48, per firmware layout. */
  datatype Environment =
      /** Firmware below 16: temperature (degrees C), pressure (Pa), sampling period (s). */
    | Legacy(temperature: real, pressure: nat, period: real)
      /** Firmware 16 and later: sample flow rate, then one field read as either temperature or pressure, then the sampling period. */
    | Modern(sfr: F32, shownTemperature: Option<real>, shownPressure: Option<nat>, periodWord: F32)

  /** One decoded histogram, raw counts (no conversion to concentration). */
  datatype Reading = Reading(
    bins: seq<nat>,       // Bin 0 .. Bin 15
    mtof: seq<real>,      // Bin1, Bin3, Bin5 and Bin7 MToF, in microseconds
    env: Environment,
    checksum: nat,
    pm1: F32,
    pm25: F32,
    pm10: F32)

  /** The histogram sum `Bin 0 + ... + Bin 15`. */
  function BinSum(bins: seq<nat>): nat
  {
    if |bins| == 0 then 0 else bins[0] + BinSum(bins[1..])
  }

  /** Bin `i` from the byte pair at offsets `2i` and `2i + 1`, low byte first. */
  function DecodeBins(words: seq<Byte>): (bins: seq<nat>)
    requires |words| == 2 * BIN_COUNT
    ensures |bins| == BIN_COUNT
    ensures forall i :: 0 <= i < BIN_COUNT ==> bins[i] == U16(words[2 * i], words[2 * i + 1])
  {
    seq(BIN_COUNT, i requires 0 <= i < BIN_COUNT => U16(words[2 * i], words[2 * i + 1]))
  }

  function DecodeMtof(b: seq<Byte>): (mtof: seq<real>)
    requires |b| == 4
    ensures |mtof| == 4
  {
    seq(4, j requires 0 <= j < 4 => CalculateMtof(b[j]))
  }

  /** The legacy sampling period: a count of 12 MHz clock ticks, as seconds. */
  function LegacyPeriod(vals: seq<Byte>): (p: real)
    requires |vals| == 4
    ensures p * 12000000.0 == U32(vals[0], vals[1], vals[2], vals[3]) as real
  {
    U32(vals[0], vals[1], vals[2], vals[3]) as real / 12000000.0
  }

  const PRESSURE_FLOOR: nat := 98000
  const TEMPERATURE_CEILING: real := 500.0

  /**
   The field shared by temperature and pressure on firmware 16 and later:
   read as pressure, a value above 98000 is a pressure; otherwise read as
   temperature, a value below 500 degrees is a temperature; otherwise it is
   neither. `(temperature, pressure)`.
   */
  function ResolveShared(vals: seq<Byte>): (r: (Option<real>, Option<nat>))
    requires |vals| == 4
    ensures var raw := U32(vals[0], vals[1], vals[2], vals[3]);
      && (raw > PRESSURE_FLOOR ==> r == (None, Some(raw)))
      && (raw < 5000 ==> r == (Some(raw as real / 10.0), None))
      && (5000 <= raw <= PRESSURE_FLOOR ==> r == (None, None))
  {
    var tmp := CalculatePressure(vals).value;
    if tmp > PRESSURE_FLOOR then (None, Some(tmp))
    else
      var t := CalculateTemp(vals).value;
      if t < TEMPERATURE_CEILING then (Some(t), None)
      else (None, None)
  }

  /** The section at offsets 36..48 (here 0..12), laid out by firmware version. */
  function DecodeEnv(mid: seq<Byte>, version: real): (env: Environment)
    requires |mid| == 12
    ensures env.Legacy? <==> version < 16.0
    ensures env.Legacy? ==>
      && env.temperature * 10.0 == U32(mid[0], mid[1], mid[2], mid[3]) as real
      && env.pressure == U32(mid[4], mid[5], mid[6], mid[7])
      && env.period * 12000000.0 == U32(mid[8], mid[9], mid[10], mid[11]) as real
    ensures env.Modern? ==>
      && env.sfr.bits == mid[0..4]
      && (env.shownTemperature, env.shownPressure) == ResolveShared(mid[4..8])
      && env.periodWord.bits == mid[8..12]
  {
    if version < 16.0 then
      Legacy(CalculateTemp(mid[0..4]).value, CalculatePressure(mid[4..8]).value, LegacyPeriod(mid[8..12]))
    else
      var shared := ResolveShared(mid[4..8]);
      Modern(CalculateFloat(mid[0..4]).value, shared.0, shared.1, CalculateFloat(mid[8..12]).value)
  }

  /**
   The integer part of `histogram()` after the exchange: the reading, or
   `None` when the low 16 bits of the bin sum (`histogram_sum & 0x0000FFFF`)
   differ from the checksum field. The sampling period of the legacy layout
   is the 12 MHz tick count, as `_calculate_period` evidently intends.
   */
  function Decode(resp: seq<Byte>, version: real): (r: Option<Reading>)
    requires |resp| == PAYLOAD_LEN
    ensures r.None? <==> BinSum(DecodeBins(resp[..32])) % TWO_16 != U16(resp[48], resp[49])
    ensures r.Some? ==>
      && WellFormed(r.value)
      && (r.value.env.Legacy? <==> version < 16.0)
      && r.value.checksum == U16(resp[48], resp[49])
      && (forall i :: 0 <= i < BIN_COUNT ==> r.value.bins[i] == U16(resp[2 * i], resp[2 * i + 1]))
      && (forall j :: 0 <= j < 4 ==> r.value.mtof[j] * 3.0 == resp[32 + j] as real)
      && r.value.pm1.bits == resp[50..54] && r.value.pm25.bits == resp[54..58] && r.value.pm10.bits == resp[58..]
    ensures r.Some? ==> EnvFieldsAt(r.value.env, resp, version)
  {
    var bins := DecodeBins(resp[..32]);
    var checksum := U16(resp[48], resp[49]);
    if BinSum(bins) % TWO_16 != checksum then None
    else
      var h := Reading(bins, DecodeMtof(resp[32..36]), DecodeEnv(resp[36..48], version), checksum,
                       CalculateFloat(resp[50..54]).value, CalculateFloat(resp[54..58]).value,
                       CalculateFloat(resp[58..]).value);
      DecodedIsWellFormed(resp, version, h);
      DecodeEnvAt(resp, version);
      Some(h)
  }

  /** The middle-section fields of `env`, read at payload offsets 36, 40 and 44 under the version's layout. */
  predicate EnvFieldsAt(env: Environment, resp: seq<Byte>, version: real)
    requires |resp| == PAYLOAD_LEN
  {
    if version < 16.0 then
      && env.Legacy?
      && env.temperature * 10.0 == U32(resp[36], resp[37], resp[38], resp[39]) as real
      && env.pressure == U32(resp[40], resp[41], resp[42], resp[43])
      && env.period * 12000000.0 == U32(resp[44], resp[45], resp[46], resp[47]) as real
    else
      && env.Modern?
      && env.sfr.bits == resp[36..40]
      && (env.shownTemperature, env.shownPressure) == ResolveShared(resp[40..44])
      && env.periodWord.bits == resp[44..48]
  }

  /** The middle section decoded from `resp[36..48]` carries the fields at their payload offsets. */
  lemma DecodeEnvAt(resp: seq<Byte>, version: real)
    requires |resp| == PAYLOAD_LEN
    ensures EnvFieldsAt(DecodeEnv(resp[36..48], version), resp, version)
  {
    var mid := resp[36..48];
    assert mid[0..4] == resp[36..40] && mid[4..8] == resp[40..44] && mid[8..12] == resp[44..48];
  }

  // ---------------------------------------------------------------------
  // Readings that a payload can carry, and the payload that carries them.
  // ---------------------------------------------------------------------

  /** `x` is `k / d` for a natural `k < bound`. */
  predicate Scaled(x: real, d: real, bound: nat)
  {
    0.0 <= x * d && (x * d).Floor as real == x * d && (x * d).Floor < bound
  }

  /** The natural `k` with `x == k / d`. */
  function Ticks(x: real, d: real, bound: nat): (k: nat)
    requires Scaled(x, d, bound)
    ensures k < bound && k as real == x * d
  {
    (x * d).Floor
  }

  lemma ScaledNat(k: nat, d: real, bound: nat)
    requires d > 0.0 && k < bound
    ensures Scaled(k as real / d, d, bound) && Ticks(k as real / d, d, bound) == k
  {
    assert (k as real / d) * d == k as real;
  }

  predicate WellFormedEnv(env: Environment)
  {
    match env
    case Legacy(t, p, period) =>
      Scaled(t, 10.0, TWO_32) && p < TWO_32 && Scaled(period, 12000000.0, TWO_32)
    case Modern(sfr, t, p, period) =>
      && |sfr.bits| == 4 && |period.bits| == 4
      && !(t.Some? && p.Some?)
      && (t.Some? ==> Scaled(t.value, 10.0, 5000))
      && (p.Some? ==> PRESSURE_FLOOR < p.value < TWO_32)
  }

  /**
   A reading a payload can carry: 16 bins of 16 bits whose sum agrees with
   the checksum in its low 16 bits, time-of-flight values in thirds of a
   microsecond up to 255, and four-byte words.
   */
  predicate WellFormed(h: Reading)
  {
    && |h.bins| == BIN_COUNT
    && (forall i :: 0 <= i < BIN_COUNT ==> h.bins[i] < TWO_16)
    && h.checksum == BinSum(h.bins) % TWO_16
    && |h.mtof| == 4
    && (forall j :: 0 <= j < 4 ==> Scaled(h.mtof[j], 3.0, 256))
    && WellFormedEnv(h.env)
    && |h.pm1.bits| == 4 && |h.pm25.bits| == 4 && |h.pm10.bits| == 4
  }

  lemma DecodedMtofScaled(b: seq<Byte>)
    requires |b| == 4
    ensures forall j :: 0 <= j < 4 ==> Scaled(DecodeMtof(b)[j], 3.0, 256)
  {
    forall j | 0 <= j < 4
      ensures Scaled(DecodeMtof(b)[j], 3.0, 256)
    {
      ScaledNat(b[j], 3.0, 256);
    }
  }

  lemma DecodedEnvWellFormed(mid: seq<Byte>, version: real)
    requires |mid| == 12
    ensures WellFormedEnv(DecodeEnv(mid, version))
  {
    if version < 16.0 {
      DecodedLegacyWellFormed(mid, version);
    } else {
      DecodedModernWellFormed(mid, version);
    }
  }

  lemma DecodedLegacyWellFormed(mid: seq<Byte>, version: real)
    requires |mid| == 12 && version < 16.0
    ensures WellFormedEnv(DecodeEnv(mid, version))
  {
    var t := U32(mid[0], mid[1], mid[2], mid[3]);
    var k := U32(mid[8], mid[9], mid[10], mid[11]);
    assert CalculateTemp(mid[0..4]).value == t as real / 10.0;
    assert LegacyPeriod(mid[8..12]) == k as real / 12000000.0;
    ScaledNat(t, 10.0, TWO_32);
    ScaledNat(k, 12000000.0, TWO_32);
  }

  lemma DecodedModernWellFormed(mid: seq<Byte>, version: real)
    requires |mid| == 12 && version >= 16.0
    ensures WellFormedEnv(DecodeEnv(mid, version))
  {
    SharedWellFormed(mid[4..8]);
  }

  /** The shared field is never both a temperature and a pressure, and each reading is in its range. */
  lemma SharedWellFormed(vals: seq<Byte>)
    requires |vals| == 4
    ensures var r := ResolveShared(vals);
      && !(r.0.Some? && r.1.Some?)
      && (r.0.Some? ==> Scaled(r.0.value, 10.0, 5000))
      && (r.1.Some? ==> PRESSURE_FLOOR < r.1.value < TWO_32)
  {
    var raw := U32(vals[0], vals[1], vals[2], vals[3]);
    if raw < 5000 {
      ScaledNat(raw, 10.0, 5000);
    }
  }

  lemma DecodedIsWellFormed(resp: seq<Byte>, version: real, h: Reading)
    requires |resp| == PAYLOAD_LEN
    requires h == Reading(DecodeBins(resp[..32]), DecodeMtof(resp[32..36]), DecodeEnv(resp[36..48], version),
                          U16(resp[48], resp[49]), CalculateFloat(resp[50..54]).value,
                          CalculateFloat(resp[54..58]).value, CalculateFloat(resp[58..]).value)
    requires BinSum(h.bins) % TWO_16 == h.checksum
    ensures WellFormed(h)
  {
    DecodedMtofScaled(resp[32..36]);
    DecodedEnvWellFormed(resp[36..48], version);
  }

  /** Bytes `2i` and `2i + 1` carry bin `i`, low byte first. */
  function EncodeBins(bins: seq<nat>): (words: seq<Byte>)
    requires |bins| == BIN_COUNT
    requires forall i :: 0 <= i < BIN_COUNT ==> bins[i] < TWO_16
    ensures |words| == 2 * BIN_COUNT
  {
    seq(2 * BIN_COUNT, k requires 0 <= k < 2 * BIN_COUNT =>
      if k % 2 == 0 then bins[k / 2] % 256 else bins[k / 2] / 256)
  }

  function EncodeMtof(mtof: seq<real>): (b: seq<Byte>)
    requires |mtof| == 4
    requires forall j :: 0 <= j < 4 ==> Scaled(mtof[j], 3.0, 256)
    ensures |b| == 4
  {
    seq(4, j requires 0 <= j < 4 => Ticks(mtof[j], 3.0, 256))
  }

  /** The raw 32-bit value of the shared field; a reading that is neither is sent as 5000. */
  function SharedRaw(t: Option<real>, p: Option<nat>): (raw: nat)
    requires !(t.Some? && p.Some?)
    requires t.Some? ==> Scaled(t.value, 10.0, 5000)
    requires p.Some? ==> PRESSURE_FLOOR < p.value < TWO_32
    ensures raw < TWO_32
  {
    if p.Some? then p.value
    else if t.Some? then Ticks(t.value, 10.0, 5000)
    else 5000
  }

  function EncodeEnv(env: Environment): (mid: seq<Byte>)
    requires WellFormedEnv(env)
    ensures |mid| == 12
  {
    match env
    case Legacy(t, p, period) =>
      U32Bytes(Ticks(t, 10.0, TWO_32)) + U32Bytes(p) + U32Bytes(Ticks(period, 12000000.0, TWO_32))
    case Modern(sfr, t, p, period) =>
      sfr.bits + U32Bytes(SharedRaw(t, p)) + period.bits
  }

  /** The 62-byte payload the device sends for `h`. */
  function Encode(h: Reading): (resp: seq<Byte>)
    requires WellFormed(h)
    ensures |resp| == PAYLOAD_LEN
  {
    EncodeBins(h.bins) + EncodeMtof(h.mtof) + EncodeEnv(h.env) + U16Bytes(h.checksum)
      + h.pm1.bits + h.pm25.bits + h.pm10.bits
  }

  lemma BinsRoundTrip(bins: seq<nat>)
    requires |bins| == BIN_COUNT
    requires forall i :: 0 <= i < BIN_COUNT ==> bins[i] < TWO_16
    ensures DecodeBins(EncodeBins(bins)) == bins
  {
    var words := EncodeBins(bins);
    forall i | 0 <= i < BIN_COUNT
      ensures DecodeBins(words)[i] == bins[i]
    {
      assert (2 * i) / 2 == i && (2 * i + 1) / 2 == i;
      assert (2 * i + 1) % 2 == 1;
    }
  }

  lemma MtofRoundTrip(mtof: seq<real>)
    requires |mtof| == 4
    requires forall j :: 0 <= j < 4 ==> Scaled(mtof[j], 3.0, 256)
    ensures DecodeMtof(EncodeMtof(mtof)) == mtof
  {
    var b := EncodeMtof(mtof);
    forall j | 0 <= j < 4
      ensures DecodeMtof(b)[j] == mtof[j]
    {
      assert b[j] as real == mtof[j] * 3.0;
    }
  }

  lemma EnvRoundTrip(env: Environment, version: real)
    requires WellFormedEnv(env)
    requires env.Legacy? <==> version < 16.0
    ensures DecodeEnv(EncodeEnv(env), version) == env
  {
    if env.Legacy? {
      LegacyEnvRoundTrip(env, version);
    } else {
      ModernEnvRoundTrip(env, version);
    }
  }

  lemma LegacyEnvRoundTrip(env: Environment, version: real)
    requires WellFormedEnv(env) && env.Legacy?
    requires version < 16.0
    ensures DecodeEnv(EncodeEnv(env), version) == env
  {
    var mid := EncodeEnv(env);
    var a := U32Bytes(Ticks(env.temperature, 10.0, TWO_32));
    var b := U32Bytes(env.pressure);
    var c := U32Bytes(Ticks(env.period, 12000000.0, TWO_32));
    assert mid == a + b + c;
    ThreeWords(a, b, c);
    TemperatureRoundTrip(env.temperature);
    U32RoundTrip(env.pressure);
    PeriodRoundTrip(env.period);
  }

  lemma TemperatureRoundTrip(t: real)
    requires Scaled(t, 10.0, TWO_32)
    ensures CalculateTemp(U32Bytes(Ticks(t, 10.0, TWO_32))) == Some(t)
  {
    var k := Ticks(t, 10.0, TWO_32);
    U32RoundTrip(k);
    assert CalculateTemp(U32Bytes(k)).value * 10.0 == k as real;
  }

  lemma PeriodRoundTrip(p: real)
    requires Scaled(p, 12000000.0, TWO_32)
    ensures LegacyPeriod(U32Bytes(Ticks(p, 12000000.0, TWO_32))) == p
  {
    var k := Ticks(p, 12000000.0, TWO_32);
    var c := U32Bytes(k);
    assert U32(c[0], c[1], c[2], c[3]) == k;
    assert LegacyPeriod(c) * 12000000.0 == k as real;
  }

  lemma ModernEnvRoundTrip(env: Environment, version: real)
    requires WellFormedEnv(env) && env.Modern?
    requires version >= 16.0
    ensures DecodeEnv(EncodeEnv(env), version) == env
  {
    var mid := EncodeEnv(env);
    var b := U32Bytes(SharedRaw(env.shownTemperature, env.shownPressure));
    assert mid == env.sfr.bits + b + env.periodWord.bits;
    ThreeWords(env.sfr.bits, b, env.periodWord.bits);
    SharedRoundTrip(env.shownTemperature, env.shownPressure);
  }

  /** The shared word resolves back to the temperature or pressure it was written from. */
  lemma SharedRoundTrip(t: Option<real>, p: Option<nat>)
    requires !(t.Some? && p.Some?)
    requires t.Some? ==> Scaled(t.value, 10.0, 5000)
    requires p.Some? ==> PRESSURE_FLOOR < p.value < TWO_32
    ensures ResolveShared(U32Bytes(SharedRaw(t, p))) == (t, p)
  {
    var raw := SharedRaw(t, p);
    ResolveRaw(U32Bytes(raw), raw);
    if p.None? && t.Some? {
      TenthsBack(t.value);
    }
  }

  /** `ResolveShared` stated over the word's value. */
  lemma ResolveRaw(b: seq<Byte>, raw: nat)
    requires |b| == 4 && U32(b[0], b[1], b[2], b[3]) == raw
    ensures raw > PRESSURE_FLOOR ==> ResolveShared(b) == (None, Some(raw))
    ensures raw < 5000 ==> ResolveShared(b) == (Some(raw as real / 10.0), None)
    ensures 5000 <= raw <= PRESSURE_FLOOR ==> ResolveShared(b) == (None, None)
  {
  }

  /** A temperature in tenths of a degree is its tick count over ten. */
  lemma TenthsBack(x: real)
    requires Scaled(x, 10.0, 5000)
    ensures Ticks(x, 10.0, 5000) as real / 10.0 == x
  {
  }

  /** The three four-byte words of the middle section, at 0, 4 and 8. */
  lemma ThreeWords(a: seq<Byte>, b: seq<Byte>, c: seq<Byte>)
    requires |a| == 4 && |b| == 4 && |c| == 4
    ensures (a + b + c)[0..4] == a && (a + b + c)[4..8] == b && (a + b + c)[8..12] == c
  {
  }

  /** A 32-bit value read back from its own four bytes. */
  lemma U32RoundTrip(v: nat)
    requires v < TWO_32
    ensures CalculatePressure(U32Bytes(v)) == Some(v)
  {
    var b := U32Bytes(v);
    assert b[..4] == b;
  }

  /** The pieces of an encoded payload sit at the offsets the decoder reads. */
  lemma EncodeLayout(h: Reading)
    requires WellFormed(h)
    ensures var resp := Encode(h);
      && resp[..32] == EncodeBins(h.bins)
      && resp[32..36] == EncodeMtof(h.mtof)
      && resp[36..48] == EncodeEnv(h.env)
      && resp[48..50] == U16Bytes(h.checksum)
      && resp[50..54] == h.pm1.bits
      && resp[54..58] == h.pm25.bits
      && resp[58..] == h.pm10.bits
  {
    var head := EncodeBins(h.bins) + EncodeMtof(h.mtof) + EncodeEnv(h.env);
    var tail := U16Bytes(h.checksum) + h.pm1.bits + h.pm25.bits + h.pm10.bits;
    assert Encode(h) == head + tail;
    Split(head, tail);
    HeadLayout(EncodeBins(h.bins), EncodeMtof(h.mtof), EncodeEnv(h.env));
    TailLayout(U16Bytes(h.checksum), h.pm1.bits, h.pm25.bits, h.pm10.bits);
    OffsetSlices(Encode(h), head, tail);
  }

  lemma Split(a: seq<Byte>, b: seq<Byte>)
    ensures (a + b)[..|a|] == a && (a + b)[|a|..] == b
  {
  }

  lemma HeadLayout(bins: seq<Byte>, mtof: seq<Byte>, env: seq<Byte>)
    requires |bins| == 32 && |mtof| == 4 && |env| == 12
    ensures var head := bins + mtof + env;
      head[..32] == bins && head[32..36] == mtof && head[36..] == env
  {
  }

  lemma TailLayout(sum: seq<Byte>, a: seq<Byte>, b: seq<Byte>, c: seq<Byte>)
    requires |sum| == 2 && |a| == 4 && |b| == 4 && |c| == 4
    ensures var tail := sum + a + b + c;
      tail[..2] == sum && tail[2..6] == a && tail[6..10] == b && tail[10..] == c
  {
  }

  /** Slices of the whole payload are slices of its head or its tail. */
  lemma OffsetSlices(resp: seq<Byte>, head: seq<Byte>, tail: seq<Byte>)
    requires |head| == 48 && |tail| == 14 && resp == head + tail
    ensures resp[..32] == head[..32] && resp[32..36] == head[32..36] && resp[36..48] == head[36..]
    ensures resp[48..50] == tail[..2] && resp[50..54] == tail[2..6] && resp[54..58] == tail[6..10]
    ensures resp[58..] == tail[10..]
  {
  }

  /**
   Decoding the payload the device sends for a well-formed reading gives that
   reading back, under the layout the firmware version selects.
   */
  lemma DecodeEncode(h: Reading, version: real)
    requires WellFormed(h)
    requires h.env.Legacy? <==> version < 16.0
    ensures Decode(Encode(h), version) == Some(h)
  {
    var resp := Encode(h);
    EncodeLayout(h);
    BinsRoundTrip(h.bins);
    MtofRoundTrip(h.mtof);
    EnvRoundTrip(h.env, version);
    assert U16(resp[48], resp[49]) == h.checksum;
  }

  /**
   Exactly the payloads whose checksum disagrees with the low 16 bits of the
   bin sum are discarded: changing only the checksum field of a valid payload
   makes it rejected.
   */
  lemma CorruptChecksumRejected(h: Reading, version: real, lo: Byte, hi: Byte)
    requires WellFormed(h)
    requires U16(lo, hi) != h.checksum
    ensures var resp := Encode(h);
      Decode(resp[..48] + [lo, hi] + resp[50..], version).None?
  {
    var resp := Encode(h);
    EncodeLayout(h);
    BinsRoundTrip(h.bins);
    ReplaceChecksum(resp, lo, hi);
  }

  lemma ReplaceChecksum(resp: seq<Byte>, lo: Byte, hi: Byte)
    requires |resp| == PAYLOAD_LEN
    ensures var bad := resp[..48] + [lo, hi] + resp[50..];
      |bad| == PAYLOAD_LEN && bad[..32] == resp[..32] && bad[48] == lo && bad[49] == hi
  {
  }
}

=== FILE: legacy.dfy ===
/**
 The early stand-alone `OPCN2` driver: the same power and status commands,
 an information string whose characters 23..27 are kept as the firmware
 name, and a histogram read without checksum validation. The file does not
 parse as it stands (see `PressureParenthesisUnclosed`); the driver is modelled
 as it behaves once the parenthesis of `__calculatePressure` is closed.
 */
module LegacyOpc {
  import opened Wrappers
  import opened Bytes
  import opened Transport
  import opened Commands
  import opened Histogram

  /** The driver object: `self.firmware` (a string once read) and `self.cnxn`. */
  datatype LegacyDriver = LegacyDriver(firmware: Option<string>, ch: Channel)

  /** `OPCN2(spi)`: the firmware name is unknown until the information string is read. */
  function OpenLegacy(ch: Channel): (d: LegacyDriver)
    ensures d.firmware.None? && d.ch == ch
  {
    LegacyDriver(None, ch)
  }

  function OnDriver<T>(d: LegacyDriver, r: Reply<Channel, T>): Reply<LegacyDriver, T>
  {
    Reply(r.result, d.(ch := r.after))
  }

  /** `on`: the same two transfers as the packaged driver. */
  function On(d: LegacyDriver): (r: Reply<LegacyDriver, bool>)
    ensures r.after.firmware == d.firmware
    ensures Performs(Reply(r.result, r.after.ch), ON_SCRIPT, d.ch)
  {
    OnDriver(d, PowerOn(d.ch))
  }

  /** `off`: the same two transfers as the packaged driver. */
  function Off(d: LegacyDriver): (r: Reply<LegacyDriver, bool>)
    ensures r.after.firmware == d.firmware
    ensures Performs(Reply(r.result, r.after.ch), OFF_SCRIPT, d.ch)
  {
    OnDriver(d, PowerOff(d.ch))
  }

  /** `checkStatus`: the packaged driver's `ping`. */
  function CheckStatus(d: LegacyDriver): (r: Reply<LegacyDriver, bool>)
    ensures r.after.firmware == d.firmware
    ensures Performs(Reply(r.result, r.after.ch), PING_SCRIPT, d.ch)
  {
    OnDriver(d, Ping(d.ch))
  }

  /** `readInfoString`: 0x3F and 60 filler transfers; the firmware name is `infostring[23:27]`. */
  function ReadInfoString(d: LegacyDriver): (r: Reply<LegacyDriver, string>)
    ensures r.result.Ok? <==> 61 <= |d.ch.replies|
    ensures r.result.Err? ==> r.result.error == TransportError && r.after.firmware == d.firmware
    ensures r.result.Ok? ==>
      && r.result.value == Chars(d.ch.replies[1..61])
      && r.after.firmware == Some(r.result.value[23..27])
      && (forall i :: 0 <= i < 4 ==> r.after.firmware.value[i] as int == d.ch.replies[24 + i])
      && r.after.ch == Channel(d.ch.replies[61..], d.ch.sent + [[0x3F]] + Fillers(60))
  {
    var x := Exchange(d.ch, 0x3F, 60);
    if x.result.Err? then Reply(Err(x.result.error), d.(ch := x.after))
    else
      var info := Chars(x.result.value);
      NameCodes(d.ch.replies[1..61]);
      Reply(Ok(info), LegacyDriver(Some(info[23..27]), x.after))
  }

  /** Characters 23..27 of the information string carry the codes of bytes 24..28 of the replies. */
  lemma NameCodes(bytes: seq<Byte>)
    requires |bytes| == 60
    ensures forall i :: 0 <= i < 4 ==> Chars(bytes)[23..27][i] as int == bytes[23 + i]
  {
  }

  // ---------------------------------------------------------------------
  // Whether the file parses. A Python expression continues onto the next
  // line while one of its brackets is open, so a `def` after an unclosed
  // bracket is a syntax error and the module cannot be imported.
  // ---------------------------------------------------------------------

  /** The change in parenthesis depth one character makes. */
  function Step(c: char): (d: int)
    ensures d == (if c == '(' then 1 else if c == ')' then -1 else 0)
  {
    if c == '(' then 1 else if c == ')' then -1 else 0
  }

  /**
   The number of parentheses `text` leaves open: opening minus closing ones.
   Square brackets and braces also join lines, but they balance on the line
   in question, so only parentheses are counted.
   */
  function Nesting(text: string): (d: int)
    ensures -|text| <= d <= |text|
  {
    if |text| == 0 then 0 else Step(text[0]) + Nesting(text[1..])
  }

  /** Depth adds up over consecutive pieces of a line. */
  lemma {:induction false} NestingAppend(a: string, b: string)
    ensures Nesting(a + b) == Nesting(a) + Nesting(b)
  {
    if |a| == 0 {
      assert a + b == b;
    } else {
      assert (a + b)[0] == a[0];
      assert (a + b)[1..] == a[1..] + b;
      NestingAppend(a[1..], b);
    }
  }

  /**
   The parentheses of the expression `__calculatePressure` returns, in
   order: two opening ones, the parenthesised `vals[2]` and `vals[1]` terms,
   and one closing one. The `vals[3] << 24` term is never closed.
   */
  const PRESSURE_PARENS: string := "((()())"

  /**
   The parentheses of the same expression in `__calculateTemp` and
   `__calculatePeriod`, where each of the `vals[3]`, `vals[2]` and `vals[1]`
   terms is parenthesised inside one outer pair.
   */
  const WORD_PARENS: string := "(()()())"

  /**
   The pressure expression leaves one parenthesis open, so the `def` that
   follows it does not parse. Closing the `vals[3] << 24` term gives the
   layout of the sibling helpers, which closes.
   */
  lemma PressureParenthesisUnclosed()
    ensures Nesting(PRESSURE_PARENS) == 1
    ensures PRESSURE_PARENS[..2] + ")" + PRESSURE_PARENS[2..] == WORD_PARENS
    ensures Nesting(WORD_PARENS) == 0
  {
    assert Nesting("()())") == -1;
    assert Nesting("()()())") == -1;
  }

  /** `__calculateHist(MSB, LSB)`: `(MSB << 8) | LSB`. */
  function CalculateHist(msb: Byte, lsb: Byte): (r: nat)
    ensures r < TWO_16 && r / 256 == msb && r % 256 == lsb
  {
    msb * 256 + lsb
  }

  /** The dictionary `readHistogram` builds; the PM entries are the constant `True` and are not kept. */
  datatype LegacyData = LegacyData(
    bins: seq<nat>,
    mtof: seq<real>,
    temperature: real,
    pressure: nat,
    period: real,
    checksum: nat)

  /**
   `__calculateTemp`, `__calculatePressure` and `__calculatePeriod` applied
   to three slices; each reads `vals[0]` to `vals[3]`, so a slice shorter
   than four bytes raises `IndexError`.
   */
  function EnvFields(t: seq<Byte>, p: seq<Byte>, q: seq<Byte>): (r: Result<(real, nat, real)>)
    ensures r.Ok? <==> |t| >= 4 && |p| >= 4 && |q| >= 4
    ensures r.Err? ==> r.error == IndexError
    ensures r.Ok? ==>
      && r.value.0 * 10.0 == U32(t[0], t[1], t[2], t[3]) as real
      && r.value.1 == U32(p[0], p[1], p[2], p[3])
      && r.value.2 * 12000000.0 == U32(q[0], q[1], q[2], q[3]) as real
  {
    if |t| < 4 || |p| < 4 || |q| < 4 then Err(IndexError)
    else Ok((CalculateTemp(t).value, CalculatePressure(p).value, LegacyPeriod(q[..4])))
  }

  /**
   Temperature, pressure and period as written, once the file parses and the
   helpers are reached: `resp[36:39]`, `resp[40:43]` and `resp[44:47]` hold
   three bytes each.
   */
  function EnvAsWritten(resp: seq<Byte>): (r: Result<(real, nat, real)>)
    requires |resp| == PAYLOAD_LEN
    ensures r == Err(IndexError)
  {
    EnvFields(resp[36..39], resp[40..43], resp[44..47])
  }

  /** Temperature, pressure and period from the four-byte fields at 36, 40 and 44. */
  function Env(resp: seq<Byte>): (r: Result<(real, nat, real)>)
    requires |resp| == PAYLOAD_LEN
    ensures r.Ok?
    ensures r.value.0 * 10.0 == U32(resp[36], resp[37], resp[38], resp[39]) as real
    ensures r.value.1 == U32(resp[40], resp[41], resp[42], resp[43])
    ensures r.value.2 * 12000000.0 == U32(resp[44], resp[45], resp[46], resp[47]) as real
  {
    EnvFields(resp[36..40], resp[40..44], resp[44..48])
  }

  /** The dictionary from the 62 payload bytes, with the four-byte environment fields; no checksum check. */
  function DecodeLegacy(resp: seq<Byte>): (r: LegacyData)
    requires |resp| == PAYLOAD_LEN
    ensures |r.bins| == BIN_COUNT && |r.mtof| == 4
    ensures forall i :: 0 <= i < BIN_COUNT ==> r.bins[i] == CalculateHist(resp[2 * i + 1], resp[2 * i])
    ensures forall j :: 0 <= j < 4 ==> r.mtof[j] * 3.0 == resp[32 + j] as real
    ensures r.checksum == CalculateHist(resp[49], resp[48])
    ensures (r.temperature, r.pressure, r.period) == Env(resp).value
  {
    var env := Env(resp).value;
    LegacyData(DecodeBins(resp[..32]), DecodeMtof(resp[32..36]), env.0, env.1, env.2,
               CalculateHist(resp[49], resp[48]))
  }

  /** The 0x30 command and the 62 filler transfers both histogram reads start with. */
  function ReadPayload(d: LegacyDriver): (r: Reply<LegacyDriver, seq<Byte>>)
    ensures r.after.firmware == d.firmware
    ensures r.result.Ok? <==> 63 <= |d.ch.replies|
    ensures r.result.Err? ==> r.result.error == TransportError
    ensures r.result.Ok? ==>
      && r.result.value == d.ch.replies[1..63]
      && r.after.ch == Channel(d.ch.replies[63..], d.ch.sent + [[0x30]] + Fillers(62))
  {
    OnDriver(d, Exchange(d.ch, 0x30, PAYLOAD_LEN))
  }

  /**
   `readHistogram` as written, once the file parses: after the 63 transfers, the first call
   `self.__calculateHist(resp[1], resp[0])` passes three arguments to a
   two-parameter function and raises `TypeError`.
   */
  function ReadHistogramAsWritten(d: LegacyDriver): (r: Reply<LegacyDriver, LegacyData>)
    ensures r.result.Err?
    ensures r.result.error == (if 63 <= |d.ch.replies| then TypeError else TransportError)
    ensures r.after.firmware == d.firmware
  {
    var x := ReadPayload(d);
    if x.result.Err? then Reply(Err(x.result.error), x.after)
    else Reply(Err(TypeError), x.after)
  }

  /** `readHistogram` with the helpers called as plain functions and four-byte environment fields. */
  function ReadHistogram(d: LegacyDriver): (r: Reply<LegacyDriver, LegacyData>)
    ensures r.after.firmware == d.firmware
    ensures r.result.Ok? <==> 63 <= |d.ch.replies|
    ensures r.result.Err? ==> r.result.error == TransportError
    ensures r.result.Ok? ==>
      && r.result.value == DecodeLegacy(d.ch.replies[1..63])
      && r.after.ch == Channel(d.ch.replies[63..], d.ch.sent + [[0x30]] + Fillers(62))
  {
    var x := ReadPayload(d);
    if x.result.Err? then Reply(Err(x.result.error), x.after)
    else Reply(Ok(DecodeLegacy(x.result.value)), x.after)
  }

  /**
   The two drivers agree on firmware below 16: when the checksum matches,
   the packaged decoder yields the same bins, times of flight, environment
   fields and checksum as the early driver.
   */
  lemma LegacyAgreesWithPackaged(resp: seq<Byte>, version: real)
    requires |resp| == PAYLOAD_LEN && version < 16.0
    requires Decode(resp, version).Some?
    ensures var h, l := Decode(resp, version).value, DecodeLegacy(resp);
      && h.bins == l.bins && h.mtof == l.mtof && h.checksum == l.checksum
      && h.env == Legacy(l.temperature, l.pressure, l.period)
  {
    var h, l := Decode(resp, version).value, DecodeLegacy(resp);
  }

  /** Every payload makes the written environment decoding fail, and the corrected one succeed. */
  lemma EnvFinding(resp: seq<Byte>)
    requires |resp| == PAYLOAD_LEN
    ensures EnvAsWritten(resp) == Err(IndexError)
    ensures Env(resp).Ok?
  {
  }
}

=== FILE: opcn2.dfy ===
/**
 The `OPC` / `OPCN2` driver object: its firmware dictionary and its
 connection, the read commands built on the transfer primitive, the
 version-gated methods, and construction with firmware detection.
 */
module OpcN2 {
  import opened Wrappers
  import opened Bytes
  import opened Transport
  import opened Commands
  import opened Firmware
  import opened Decorators
  import opened Histogram
  import opened Config

  /** The driver object: `self.firmware` and `self.cnxn`. */
  datatype Session = Session(fw: FirmwareInfo, ch: Channel)

  const FIRMWARE_MIN: int := 14
  const FIRMWARE_MAX: int := 18
  /** The version `requires_firmware(18.)` demands. */
  const GATE: real := 18.0

  /** A channel-level operation run on the driver's connection; the firmware dictionary is untouched. */
  function OnChannel<T>(s: Session, r: Reply<Channel, T>): Reply<Session, T>
  {
    Reply(r.result, s.(ch := r.after))
  }

  /** `read_info_string`: 0x3F, then 60 filler transfers whose replies are the characters. */
  function ReadInfoString(s: Session): (r: Reply<Session, string>)
    ensures r.after.fw == s.fw
    ensures r.result.Ok? <==> 61 <= |s.ch.replies|
    ensures r.result.Err? ==> r.result.error == TransportError && r.after.ch.replies == []
    ensures r.result.Ok? ==>
      && r.result.value == Chars(s.ch.replies[1..61])
      && r.after.ch == Channel(s.ch.replies[61..], s.ch.sent + [[0x3F]] + Fillers(60))
  {
    var x := Exchange(s.ch, 0x3F, 60);
    OnChannel(s, if x.result.Err? then Reply(Err(x.result.error), x.after) else Reply(Ok(Chars(x.result.value)), x.after))
  }

  /**
   `histogram` as written: on firmware below 16 the legacy branch calls
   `_calculate_period`, which compares the whole `firmware` dictionary with
   16 and raises `TypeError`; this happens after the exchange.
   */
  function HistogramAsWritten(s: Session): (r: Reply<Session, Option<Reading>>)
    ensures s.fw.version.Some? && s.fw.version.value < 16.0 && 63 <= |s.ch.replies| ==> r.result == Err(TypeError)
  {
    var x := Exchange(s.ch, 0x30, PAYLOAD_LEN);
    var s' := s.(ch := x.after);
    if x.result.Err? then Reply(Err(x.result.error), s')
    else if s.fw.version.None? then Reply(Err(TypeError), s')
    else if s.fw.version.value < 16.0 then Reply(Err(TypeError), s')
    else Reply(Ok(Decode(x.result.value, s.fw.version.value)), s')
  }

  /**
   `histogram(number_concentration=False)` with the legacy sampling period
   computed from its tick count: 0x30, then 62 filler transfers, then the
   decoded reading, or `None` when the checksum disagrees.
   */
  function ReadHistogram(s: Session): (r: Reply<Session, Option<Reading>>)
    ensures r.after.fw == s.fw
    ensures r.result.Ok? <==> 63 <= |s.ch.replies| && s.fw.version.Some?
    ensures 63 <= |s.ch.replies| ==>
      r.after.ch == Channel(s.ch.replies[63..], s.ch.sent + [[0x30]] + Fillers(62))
    ensures r.result.Ok? ==> r.result.value == Decode(s.ch.replies[1..63], s.fw.version.value)
    ensures r.result.Err? ==> r.result.error == (if 63 <= |s.ch.replies| then TypeError else TransportError)
  {
    var x := Exchange(s.ch, 0x30, PAYLOAD_LEN);
    var s' := s.(ch := x.after);
    if x.result.Err? then Reply(Err(x.result.error), s')
    else if s.fw.version.None? then Reply(Err(TypeError), s')
    else Reply(Ok(Decode(x.result.value, s.fw.version.value)), s')
  }

  /**
   On firmware 14 an all-zero payload is a valid histogram (every bin 0,
   checksum 0), yet the written method raises instead of returning it.
   */
  lemma HistogramLegacyFinding()
    ensures var s := Session(FirmwareInfo(Some(14), None, Some(14.0)), Channel(seq(63, _ => 0), []));
      && HistogramAsWritten(s).result == Err(TypeError)
      && ReadHistogram(s).result.Ok?
      && ReadHistogram(s).result.value.Some?
  {
    var s := Session(FirmwareInfo(Some(14), None, Some(14.0)), Channel(seq(63, _ => 0), []));
    assert s.ch.replies[1..63] == seq(PAYLOAD_LEN, _ => 0);
    ZeroPayloadDecodes(14.0);
  }

  /** The all-zero payload carries a matching checksum. */
  lemma ZeroPayloadDecodes(version: real)
    ensures Decode(seq(PAYLOAD_LEN, _ => 0), version).Some?
  {
    var resp: seq<Byte> := seq(PAYLOAD_LEN, _ => 0);
    ZeroChecksumMatches(resp);
  }

  lemma ZeroChecksumMatches(resp: seq<Byte>)
    requires |resp| == PAYLOAD_LEN
    requires forall k :: 0 <= k < |resp| ==> resp[k] == 0
    ensures BinSum(DecodeBins(resp[..32])) % TWO_16 == U16(resp[48], resp[49])
  {
    var words := resp[..32];
    var bins := DecodeBins(words);
    forall i | 0 <= i < BIN_COUNT
      ensures bins[i] == 0
    {
      assert words[2 * i] == 0 && words[2 * i + 1] == 0;
    }
    ZeroBinsSumToZero(bins);
  }

  lemma {:induction false} ZeroBinsSumToZero(bins: seq<nat>)
    requires forall i :: 0 <= i < |bins| ==> bins[i] == 0
    ensures BinSum(bins) == 0
    decreases |bins|
  {
    if |bins| > 0 {
      ZeroBinsSumToZero(bins[1..]);
    }
  }

  /**
   `config`: 0x3C, then 256 filler transfers, decoded with the major
   version; a missing major version makes `major > 15.` raise `TypeError`.
   */
  function ReadConfig(s: Session): (r: Reply<Session, ConfigTable>)
    ensures r.after.fw == s.fw
    ensures r.result.Ok? <==> 257 <= |s.ch.replies| && s.fw.major.Some?
    ensures r.result.Err? ==> r.result.error == (if 257 <= |s.ch.replies| then TypeError else TransportError)
    ensures r.result.Ok? ==>
      && r.result.value == DecodeConfig(s.ch.replies[1..257], s.fw.major.value)
      && r.after.ch == Channel(s.ch.replies[257..], s.ch.sent + [[0x3C]] + Fillers(256))
  {
    var x := Exchange(s.ch, 0x3C, CONFIG_LEN);
    var s' := s.(ch := x.after);
    if x.result.Err? then Reply(Err(x.result.error), s')
    else if s.fw.major.None? then Reply(Err(TypeError), s')
    else Reply(Ok(DecodeConfig(x.result.value, s.fw.major.value)), s')
  }

  function Config2Body(s: Session): Reply<Session, Config2Table>
  {
    var x := Exchange(s.ch, 0x3D, CONFIG2_LEN);
    OnChannel(s, if x.result.Err? then Reply(Err(x.result.error), x.after) else Reply(Ok(DecodeConfig2(x.result.value)), x.after))
  }

  /** `config2`, firmware 18 and later: 0x3D, then 9 filler transfers. */
  function ReadConfig2(s: Session): (r: Reply<Session, Config2Table>)
    ensures Admit(s.fw.version, GATE).Err? ==> r == Reply(Err(Admit(s.fw.version, GATE).error), s)
    ensures Admit(s.fw.version, GATE).Ok? ==>
      && (r.result.Ok? <==> 10 <= |s.ch.replies|)
      && (r.result.Ok? ==>
            && r.result.value == DecodeConfig2(s.ch.replies[1..10])
            && r.after == Session(s.fw, Channel(s.ch.replies[10..], s.ch.sent + [[0x3D]] + Fillers(9))))
  {
    RequiresFirmware(GATE, s.fw.version, Config2Body, s)
  }

  function PotStatusBody(s: Session): Reply<Session, PotStatus>
  {
    var x := Exchange(s.ch, 0x13, 4);
    OnChannel(s, if x.result.Err? then Reply(Err(x.result.error), x.after) else Reply(Ok(DecodePotStatus(x.result.value)), x.after))
  }

  /** `read_pot_status`, firmware 18 and later: 0x13, then 4 filler transfers giving FanON, LaserON, FanDACVal, LaserDACVal. */
  function ReadPotStatus(s: Session): (r: Reply<Session, PotStatus>)
    ensures Admit(s.fw.version, GATE).Err? ==> r == Reply(Err(Admit(s.fw.version, GATE).error), s)
    ensures Admit(s.fw.version, GATE).Ok? ==>
      && (r.result.Ok? <==> 5 <= |s.ch.replies|)
      && (r.result.Ok? ==>
            && r.result.value == PotStatus(s.ch.replies[1], s.ch.replies[2], s.ch.replies[3], s.ch.replies[4])
            && r.after == Session(s.fw, Channel(s.ch.replies[5..], s.ch.sent + [[0x13]] + Fillers(4))))
  {
    RequiresFirmware(GATE, s.fw.version, PotStatusBody, s)
  }

  function SerialBody(s: Session): Reply<Session, string>
  {
    var x := Exchange(s.ch, 0x10, 60);
    OnChannel(s, if x.result.Err? then Reply(Err(x.result.error), x.after) else Reply(Ok(Chars(x.result.value)), x.after))
  }

  /** `sn`, firmware 18 and later: 0x10, then 60 filler transfers whose replies are the characters. */
  function ReadSerialNumber(s: Session): (r: Reply<Session, string>)
    ensures Admit(s.fw.version, GATE).Err? ==> r == Reply(Err(Admit(s.fw.version, GATE).error), s)
    ensures Admit(s.fw.version, GATE).Ok? ==>
      && (r.result.Ok? <==> 61 <= |s.ch.replies|)
      && (r.result.Ok? ==>
            && r.result.value == Chars(s.ch.replies[1..61])
            && r.after == Session(s.fw, Channel(s.ch.replies[61..], s.ch.sent + [[0x10]] + Fillers(60))))
  {
    RequiresFirmware(GATE, s.fw.version, SerialBody, s)
  }

  function PmBody(s: Session): Reply<Session, PmReading>
  {
    var x := Exchange(s.ch, 0x32, 12);
    OnChannel(s, if x.result.Err? then Reply(Err(x.result.error), x.after) else Reply(Ok(DecodePm(x.result.value)), x.after))
  }

  /** `pm`, firmware 18 and later: 0x32, then 12 filler transfers holding the PM1, PM2.5 and PM10 words. */
  function ReadPm(s: Session): (r: Reply<Session, PmReading>)
    ensures Admit(s.fw.version, GATE).Err? ==> r == Reply(Err(Admit(s.fw.version, GATE).error), s)
    ensures Admit(s.fw.version, GATE).Ok? ==>
      && (r.result.Ok? <==> 13 <= |s.ch.replies|)
      && (r.result.Ok? ==>
            && r.result.value.pm1.bits == s.ch.replies[1..5]
            && r.result.value.pm25.bits == s.ch.replies[5..9]
            && r.result.value.pm10.bits == s.ch.replies[9..13]
            && r.after == Session(s.fw, Channel(s.ch.replies[13..], s.ch.sent + [[0x32]] + Fillers(12))))
  {
    RequiresFirmware(GATE, s.fw.version, PmBody, s)
  }

  /**
   The body of `read_firmware`: 0x12, then the major and the minor number,
   each stored in the dictionary as soon as it arrives; the version is set
   once both are known.
   */
  function ReadFirmwareBody(s: Session): (r: Reply<Session, FirmwareInfo>)
    ensures s.fw.version.Some? ==> r.after.fw.version.Some?
    ensures r.after.ch == FirmwareExchange(s.ch)
  {
    var x := Xfer(s.ch, [0x12]);
    if x.result.Err? then Reply(Err(x.result.error), s.(ch := x.after))
    else
      var a := Xfer1(x.after, 0x00);
      if a.result.Err? then Reply(Err(a.result.error), s.(ch := a.after))
      else
        var fw1 := s.fw.(major := Some(a.result.value));
        var b := Xfer1(a.after, 0x00);
        if b.result.Err? then Reply(Err(b.result.error), Session(fw1, b.after))
        else
          var major, minor := a.result.value, b.result.value;
          var fw2 := FirmwareInfo(Some(major), Some(minor), Some(ReportedVersion(major, minor)));
          Reply(Ok(fw2), Session(fw2, b.after))
  }

  /**
   The channel after the three transfers of `read_firmware`: `[0x12]`, then
   two fillers; a transfer the script cannot answer stops the sequence and
   leaves the script used up.
   */
  function FirmwareExchange(ch: Channel): Channel
  {
    if |ch.replies| >= 3 then Channel(ch.replies[3..], ch.sent + [[0x12], [0x00], [0x00]])
    else if |ch.replies| == 2 then Channel([], ch.sent + [[0x12], [0x00]])
    else if |ch.replies| == 1 then Channel([], ch.sent + [[0x12]])
    else ch
  }

  /** `read_firmware`, firmware 18 and later: three transfers, and the dictionary becomes the reported major, minor and version. */
  function ReadFirmware(s: Session): (r: Reply<Session, FirmwareInfo>)
    ensures s.fw.version.Some? ==> r.after.fw.version.Some?
    ensures Admit(s.fw.version, GATE).Err? ==> r == Reply(Err(Admit(s.fw.version, GATE).error), s)
    ensures Admit(s.fw.version, GATE).Ok? ==>
      && (r.result.Ok? <==> 3 <= |s.ch.replies|)
      && r.after.ch == FirmwareExchange(s.ch)
      && (r.result.Ok? ==>
            var major, minor := s.ch.replies[1], s.ch.replies[2];
            && r.result.value == FirmwareInfo(Some(major), Some(minor), Some(ReportedVersion(major, minor)))
            && r.after == Session(r.result.value, Channel(s.ch.replies[3..], s.ch.sent + [[0x12], [0x00], [0x00]])))
  {
    RequiresFirmware(GATE, s.fw.version, ReadFirmwareBody, s)
  }

  // ---------------------------------------------------------------------
  // Construction
  // ---------------------------------------------------------------------

  /**
   The fallback for the early firmware: a second information string and the
   last digit in it, or `FirmwareVersionError` when the read fails or the
   string has no digit.
   */
  function DigitFallback(s: Session): (r: Reply<Session, nat>)
    ensures r.after.fw == s.fw
    ensures r.result.Ok? <==> 61 <= |s.ch.replies| && DigitVersion(Chars(s.ch.replies[1..61])).Some?
    ensures r.result.Ok? ==> r.result.value == DigitVersion(Chars(s.ch.replies[1..61])).value
    ensures r.result.Err? ==> r.result.error == FirmwareVersionError
  {
    var second := ReadInfoString(s);
    if second.result.Ok? && DigitVersion(second.result.value).Some? then
      Reply(Ok(DigitVersion(second.result.value).value), second.after)
    else Reply(Err(FirmwareVersionError), second.after)
  }

  /**
   The version detection of `OPC.__init__`: the last three-digit run of the
   information string; if that read fails or has none, the digit fallback.
   */
  function DetectVersion(s: Session): (r: Reply<Session, nat>)
    ensures r.after.fw == s.fw
    ensures r.result.Err? ==> r.result.error == FirmwareVersionError
    ensures |s.ch.replies| < 61 ==> r.result == Err(FirmwareVersionError)
    ensures 61 <= |s.ch.replies| && TripleVersion(Chars(s.ch.replies[1..61])).Some? ==>
      r == Reply(Ok(TripleVersion(Chars(s.ch.replies[1..61])).value),
                 s.(ch := Channel(s.ch.replies[61..], s.ch.sent + [[0x3F]] + Fillers(60))))
    ensures 61 <= |s.ch.replies| && TripleVersion(Chars(s.ch.replies[1..61])).None? ==>
      r == DigitFallback(s.(ch := Channel(s.ch.replies[61..], s.ch.sent + [[0x3F]] + Fillers(60))))
  {
    var first := ReadInfoString(s);
    if first.result.Ok? && TripleVersion(first.result.value).Some? then
      Reply(Ok(TripleVersion(first.result.value).value), first.after)
    else DigitFallback(first.after)
  }

  /**
   The dictionary after the version is known: from 18 on the device is asked
   for major and minor, and a failure part way leaves whatever was already
   stored; below 18 the version itself becomes the major.
   */
  function SetMajor(s: Session, v: nat): (r: Session)
    ensures v < 18 ==> r == Session(FirmwareInfo(Some(v), None, Some(v as real)), s.ch)
    ensures v >= 18 && 3 <= |s.ch.replies| ==>
      var major, minor := s.ch.replies[1], s.ch.replies[2];
      r.fw == FirmwareInfo(Some(major), Some(minor), Some(ReportedVersion(major, minor)))
    ensures v >= 18 && |s.ch.replies| == 2 ==> r.fw == FirmwareInfo(Some(s.ch.replies[1]), None, Some(v as real))
    ensures v >= 18 && |s.ch.replies| < 2 ==> r.fw == FirmwareInfo(None, None, Some(v as real))
    ensures v >= 18 ==> r.ch == FirmwareExchange(s.ch)
    ensures r.fw.version.Some?
  {
    var s1 := s.(fw := FirmwareInfo(None, None, Some(v as real)));
    if v >= 18 then ReadFirmware(s1).after else s1.(fw := s1.fw.(major := Some(v)))
  }

  /** The range check of `OPCN2.__init__`: `None < 14.` raises `TypeError`. */
  function CheckRange(s: Session): (r: Result<()>)
    ensures r.Ok? <==> s.fw.major.Some? && FIRMWARE_MIN <= s.fw.major.value <= FIRMWARE_MAX
    ensures r.Err? ==> r.error == (if s.fw.major.None? then TypeError else FirmwareVersionError)
  {
    match s.fw.major
    case None => Err(TypeError)
    case Some(m) =>
      if m < FIRMWARE_MIN || m > FIRMWARE_MAX then Err(FirmwareVersionError) else Ok(())
  }

  /**
   `OPCN2(spi)`: detect the version, set the major (any failure while asking
   the device is swallowed), then refuse a major outside 14..18.
   */
  function Open(ch: Channel): (r: Reply<Session, ()>)
    ensures r.result.Ok? ==>
      && r.after.fw.major.Some? && r.after.fw.version.Some?
      && FIRMWARE_MIN <= r.after.fw.major.value <= FIRMWARE_MAX
    ensures DetectVersion(Session(UNKNOWN, ch)).result.Err? ==> r.result == Err(FirmwareVersionError)
  {
    var detected := DetectVersion(Session(UNKNOWN, ch));
    if detected.result.Err? then Reply(Err(FirmwareVersionError), detected.after)
    else
      var s := SetMajor(detected.after, detected.result.value);
      Reply(CheckRange(s), s)
  }

  /** A three-digit run in the first information string settles detection after one read. */
  lemma DetectFromTriple(ch: Channel)
    requires 61 <= |ch.replies|
    requires TripleVersion(Chars(ch.replies[1..61])).Some?
    ensures DetectVersion(Session(UNKNOWN, ch)) ==
      Reply(Ok(TripleVersion(Chars(ch.replies[1..61])).value),
            Session(UNKNOWN, Channel(ch.replies[61..], ch.sent + [[0x3F]] + Fillers(60))))
  {
  }

  /** Construction after a successful detection: set the major, then check its range. */
  lemma OpenAfterDetection(ch: Channel, v: nat, s1: Session)
    requires DetectVersion(Session(UNKNOWN, ch)) == Reply(Ok(v), s1)
    ensures Open(ch) == Reply(CheckRange(SetMajor(s1, v)), SetMajor(s1, v))
  {
  }

  /** A device whose information string names a version from 14 up to 17 opens with that version as its major. */
  lemma OpenBeforeEighteen(ch: Channel)
    requires 61 <= |ch.replies|
    requires TripleVersion(Chars(ch.replies[1..61])).Some?
    requires 14 <= TripleVersion(Chars(ch.replies[1..61])).value < 18
    ensures var v := TripleVersion(Chars(ch.replies[1..61])).value;
      Open(ch) == Reply(Ok(()), Session(FirmwareInfo(Some(v), None, Some(v as real)),
                                        Channel(ch.replies[61..], ch.sent + [[0x3F]] + Fillers(60))))
  {
    var v := TripleVersion(Chars(ch.replies[1..61])).value;
    var s1 := Session(UNKNOWN, Channel(ch.replies[61..], ch.sent + [[0x3F]] + Fillers(60)));
    DetectFromTriple(ch);
    OpenAfterDetection(ch, v, s1);
  }

  /**
   From version 18 on the device is asked for its firmware: the dictionary
   holds the reported major and minor, and the reported major decides
   whether the construction succeeds.
   */
  lemma OpenFromEighteen(ch: Channel)
    requires 64 <= |ch.replies|
    requires TripleVersion(Chars(ch.replies[1..61])).Some?
    requires 18 <= TripleVersion(Chars(ch.replies[1..61])).value
    ensures var major, minor := ch.replies[62], ch.replies[63];
      && Open(ch).after.fw == FirmwareInfo(Some(major), Some(minor), Some(ReportedVersion(major, minor)))
      && Open(ch).after.ch == Channel(ch.replies[64..], ch.sent + [[0x3F]] + Fillers(60) + [[0x12], [0x00], [0x00]])
      && (Open(ch).result.Ok? <==> 14 <= major <= 18)
  {
    var v := TripleVersion(Chars(ch.replies[1..61])).value;
    var rest := ch.replies[61..];
    var s1 := Session(UNKNOWN, Channel(rest, ch.sent + [[0x3F]] + Fillers(60)));
    DetectFromTriple(ch);
    OpenAfterDetection(ch, v, s1);
    assert rest[1] == ch.replies[62] && rest[2] == ch.replies[63] && rest[3..] == ch.replies[64..];
    MajorFromDevice(s1, v);
  }

  /** From version 18 on, the range check sees the major the device reports. */
  lemma MajorFromDevice(s: Session, v: nat)
    requires v >= 18 && 3 <= |s.ch.replies|
    ensures var major, minor := s.ch.replies[1], s.ch.replies[2];
      && SetMajor(s, v).fw == FirmwareInfo(Some(major), Some(minor), Some(ReportedVersion(major, minor)))
      && SetMajor(s, v).ch == Channel(s.ch.replies[3..], s.ch.sent + [[0x12], [0x00], [0x00]])
      && (CheckRange(SetMajor(s, v)).Ok? <==> 14 <= major <= 18)
  {
  }

  /** A version below 14 in the information string is refused. */
  lemma OpenRefusesOldFirmware(ch: Channel)
    requires 61 <= |ch.replies|
    requires TripleVersion(Chars(ch.replies[1..61])).Some?
    requires TripleVersion(Chars(ch.replies[1..61])).value < 14
    ensures Open(ch).result == Err(FirmwareVersionError)
  {
    var v := TripleVersion(Chars(ch.replies[1..61])).value;
    DetectFromTriple(ch);
    OpenAfterDetection(ch, v, Session(UNKNOWN, Channel(ch.replies[61..], ch.sent + [[0x3F]] + Fillers(60))));
  }

  /** An information string without a digit makes the fallback fail. */
  lemma FallbackWithoutDigit(s: Session)
    requires 61 <= |s.ch.replies|
    requires forall q :: 1 <= q < 61 ==> !IsDigit(s.ch.replies[q] as char)
    ensures DigitFallback(s).result == Err(FirmwareVersionError)
  {
    var info := Chars(s.ch.replies[1..61]);
    forall q | 0 <= q < |info|
      ensures !IsDigit(info[q])
    {
      assert info[q] == s.ch.replies[1 + q] as char;
    }
  }

  /** A failed detection ends construction with `FirmwareVersionError`. */
  lemma OpenAfterFailedDetection(ch: Channel)
    requires DetectVersion(Session(UNKNOWN, ch)).result.Err?
    ensures Open(ch).result == Err(FirmwareVersionError)
  {
  }

  /** Without a three-digit run in the first information string, detection is the digit fallback. */
  lemma DetectWithoutTriple(ch: Channel, s1: Session)
    requires 61 <= |ch.replies|
    requires forall q :: !TripleAt(Chars(ch.replies[1..61]), q)
    requires s1 == Session(UNKNOWN, Channel(ch.replies[61..], ch.sent + [[0x3F]] + Fillers(60)))
    ensures DetectVersion(Session(UNKNOWN, ch)) == DigitFallback(s1)
  {
    assert TripleVersion(Chars(ch.replies[1..61])).None?;
  }

  /** Two information strings without a usable digit make construction fail. */
  lemma OpenWithoutVersion(ch: Channel)
    requires 122 <= |ch.replies|
    requires forall q :: !TripleAt(Chars(ch.replies[1..61]), q)
    requires forall q :: 62 <= q < 122 ==> !IsDigit(ch.replies[q] as char)
    ensures Open(ch).result == Err(FirmwareVersionError)
  {
    var s1 := Session(UNKNOWN, Channel(ch.replies[61..], ch.sent + [[0x3F]] + Fillers(60)));
    forall q | 1 <= q < 61
      ensures !IsDigit(s1.ch.replies[q] as char)
    {
      assert s1.ch.replies[q] == ch.replies[61 + q];
    }
    FallbackWithoutDigit(s1);
    DetectWithoutTriple(ch, s1);
    OpenAfterFailedDetection(ch);
  }
}

=== FILE: transport.dfy ===
/**
 The duplex transfer primitive `xfer`, modelled as a script of the bytes the
 device will shift back and a trace of every `xfer` call made so far.
 Each call shifts out a list of bytes and shifts in exactly as many.
 */
module Transport {
  import opened Wrappers
  import opened Bytes

  /**
   `replies` are the bytes the device still has to return, in order; `sent`
   holds the argument of every `xfer` call made, oldest first.
   */
  datatype Channel = Channel(replies: seq<Byte>, sent: seq<seq<Byte>>)

  /** The trace of `n` single-byte filler transfers `xfer([0x00])`. */
  function Fillers(n: nat): (r: seq<seq<Byte>>)
    ensures |r| == n
    ensures forall i :: 0 <= i < n ==> r[i] == [0x00]
  {
    seq(n, _ => [0x00])
  }

  /**
   One `xfer(out)` call. A call the script cannot answer in full fails with
   `TransportError` and leaves the channel as it was.
   */
  function Xfer(ch: Channel, out: seq<Byte>): (r: Reply<Channel, seq<Byte>>)
  {
    if |out| > |ch.replies| then Reply(Err(TransportError), ch)
    else Reply(Ok(ch.replies[..|out|]), Channel(ch.replies[|out|..], ch.sent + [out]))
  }

  /** `xfer([b])[0]`: a one-byte call and its single reply. */
  function Xfer1(ch: Channel, b: Byte): (r: Reply<Channel, Byte>)
  {
    if |ch.replies| == 0 then Reply(Err(TransportError), ch)
    else Reply(Ok(ch.replies[0]), Channel(ch.replies[1..], ch.sent + [[b]]))
  }

  /**
   The read loop `for i in range(n): resp.append(xfer([0x00])[0])`: `n`
   filler transfers, collecting one reply byte from each. When the script
   runs out the loop stops with `TransportError` after the transfers that
   could be made.
   */
  function ReadBytes(ch: Channel, n: nat): (r: Reply<Channel, seq<Byte>>)
    ensures r.result.Ok? <==> n <= |ch.replies|
    ensures r.result.Ok? ==>
      && r.result.value == ch.replies[..n]
      && r.after == Channel(ch.replies[n..], ch.sent + Fillers(n))
    ensures r.result.Err? ==>
      && r.result.error == TransportError
      && r.after == Channel([], ch.sent + Fillers(|ch.replies|))
    decreases n
  {
    if n == 0 then Reply(Ok([]), ch)
    else
      var first := Xfer1(ch, 0x00);
      if first.result.Err? then Reply(Err(first.result.error), first.after)
      else
        var rest := ReadBytes(first.after, n - 1);
        if rest.result.Err? then rest
        else Reply(Ok([first.result.value] + rest.result.value), rest.after)
  }

  /**
   A read command: `xfer([cmd])`, whose reply is discarded, followed by the
   read loop for `n` payload bytes.
   */
  function Exchange(ch: Channel, cmd: Byte, n: nat): (r: Reply<Channel, seq<Byte>>)
    ensures r.result.Ok? <==> n + 1 <= |ch.replies|
    ensures r.result.Err? ==> r.result.error == TransportError && r.after.replies == []
    ensures r.result.Ok? ==>
      && r.result.value == ch.replies[1..n + 1]
      && r.after == Channel(ch.replies[n + 1..], ch.sent + [[cmd]] + Fillers(n))
  {
    var c := Xfer(ch, [cmd]);
    if c.result.Err? then Reply(Err(c.result.error), c.after)
    else
      assert c.after.replies == ch.replies[1..];
      ReadBytes(c.after, n)
  }

  /** `''.join(chr(b) for b in bytes)`: each byte becomes the character with that code. */
  function Chars(bytes: seq<Byte>): (s: string)
    ensures |s| == |bytes|
    ensures forall i :: 0 <= i < |bytes| ==> s[i] as int == bytes[i]
  {
    seq(|bytes|, i requires 0 <= i < |bytes| => bytes[i] as char)
  }
}

=== FILE: wrappers.dfy ===
/** Result types shared by every part of the driver model. */
module Wrappers {

  /** Python's `None` versus a present value. */
  datatype Option<+T> = None | Some(value: T)

  /** The exceptions the driver raises, named after the Python exception classes. */
  datatype Error =
    | TransportError          // the transfer primitive itself failed
    | FirmwareVersionError    // version undetectable, unsupported, or below a method's minimum
    | TypeError               // an operation applied to a value of the wrong type
    | ValueError              // a rejected argument
    | NameError               // an undefined name was evaluated
    | IndexError              // a sequence indexed past its end

  /** The value an operation returns, or the exception it raises. */
  datatype Result<+T> = Ok(value: T) | Err(error: Error)

  /** A result together with the state an operation leaves behind, whether it succeeded or not. */
  datatype Reply<+S, +T> = Reply(result: Result<T>, after: S)
}
